=== FILE: README.md ===
# goscript, modelled in Dafny

goscript runs a Go source file as a script. The file may start with a `#!`
line. Its bytes are hashed to a cache key. The cache store keeps one built
binary per key, under a root chosen from the environment. A run first looks
the key up: a hit reuses the binary, and a miss builds one. A build writes a
workspace holding a generated `go.mod` and the source without its `#!` line.
It then runs `go mod tidy`, builds next to the final location, and renames
the output into place. Inline code given with `-c` is indented and spliced
into a program template instead. The command line is checked before
anything else happens.

The model consists of these modules:

- `Wrappers`: `Option` and `Result`.
- `Seqs`: `strings.Split`, `strings.Join` and `bytes.Replace` with a count of 1, for one-element separators.
- `Text`: `unicode.IsSpace`, `strings.TrimSpace` and `strings.TrimPrefix`.
- `Encoding`: bytes, exact UTF-8 encoding, and lower-case hexadecimal.
- `Os`: an abstract filesystem.
  - It is a map from paths to nodes, plus a set of paths on which every operation fails with a permission error.
  - It provides `Stat`, `MkdirAll`, `WriteFile`, `Rename` and `Remove`.
  - It keeps a log of the effects that took place, which replays to the final state.
- `Cache` (cache.go): the store root, the two paths of a key, and the three-way lookup.
- `Script` (script.go): the cache key, `#!` stripping, the toolchain-version parsing, and the `go.mod` text.
- `Prepare` (script.go `PrepareScript`): the build as a sequence of stages over the abstract filesystem.
  - External `go` commands are described by a `Toolchain` value. It fixes what `go env GOVERSION` prints, what `go mod tidy` writes back to go.mod and go.sum or how it fails, and whether building succeeds.
  - The lemmas hold for every toolchain.
- `Shapes` (script.go `PrepareScript`): given the same outcomes of the go commands, none of the program's own steps depends on file contents. They depend only on which paths exist, what kind of node each is, and which are denied.
- `Resolve` (main.go `resolve`): the hit-or-build orchestration.
- `Cli` (cli.go): `validate`, and the configuration `ParseArgs` derives from the parsed flags.
- `Inline` (inline.go): `indentAsBlock` and the splice of the block into the template.

The model follows the code as written:

- The key is computed from the raw bytes, `#!` line included (main.go:60). The `#!` line is stripped only later, when the workspace is written (script.go:18).
- `go.mod` is rewritten and `go mod tidy` runs on every build (script.go:30, script.go:43). Neither is skipped when it has already been done.
- Nothing in `PrepareScript` checks whether the binary already exists before building.
- The layout is `<root>/goscript/bin/<key>/app` and `<root>/goscript/work/<key>`.
- SHA-256 is a parameter `sha: Bytes -> Digest`, so the key is a function of the content.

## Model

| member | source | states |
|---|---|---|
| Script.HashContent | script.go:12-15 | The key has 24 characters, all lower-case hexadecimal. It is a prefix of the 64-digit encoding of the digest, namely the encoding of the digest's first 12 bytes. |
| Script.KeysAgreeIffDigestPrefixesAgree | script.go:12-15 | Two contents get the same key exactly when their digests agree on the first 12 bytes. |
| Script.KeyHasNoSeparators | script.go:14 | A key holds no `/` and no newline. It is therefore one path component and stays on the module line of go.mod. |
| Script.StripShebang | script.go:60-70 | The result is always a suffix of the input. Input without a leading `#!` is returned unchanged. With `#!`, the dropped part holds no newline and the result starts at a newline. With `#!` and no newline anywhere, the result is empty. |
| Script.StripShebangKeepsLines | script.go:62-67 | Stripping keeps the number of newlines, so compiler line numbers match the original file. |
| Script.StripShebangIdempotent | script.go:60-70 | Stripping twice is the same as stripping once. |
| Script.GoVersionLine | script.go:72-81 | The version is a prefix of the trimmed output with `go` removed. Without a dot it is that whole string. With a dot it holds exactly one dot and ends at the second dot or at the end. |
| Script.GoVersionLineOfRelease | script.go:74-80 | `go<major>.<minor>.<patch>` followed by white space gives `<major>.<minor>`, so `go1.22.1` followed by a newline gives `1.22`. |
| Script.ReportedRelease | script.go:75 | Trimming the output and removing its `go` prefix gives back the printed version. |
| Script.GoModText | script.go:26-29 | Split at newlines, the go.mod text is exactly `module goscript/<key>`, an empty line, `go <version>`, and an empty remainder. |
| Cache.CacheRoot | cache.go:27-36 | The root is never empty. It is a non-empty `XDG_CACHE_HOME`; otherwise `$HOME/.cache`; otherwise `.` when there is no home directory. |
| Cache.CacheWorkDir | cache.go:38-40 | The workspace of a key is `<root>/goscript/work/<key>`. |
| Cache.CacheBinPath | cache.go:42-44 | The binary of a key is `<root>/goscript/bin/<key>/app`. |
| Cache.BinNeverWorkDir | cache.go:38-44 | A binary path never equals a workspace path, whatever the two keys. |
| Cache.PathsInjective | cache.go:38-44 | Different keys get different binary paths and different workspace paths. |
| Cache.BinPathComponents | cache.go:42-44 | Split at `/`, the binary path of a separator-free key is the root's components followed by `goscript`, `bin`, the key and `app`. |
| Cache.BinPathDir | script.go:39-40 | The directory created for a binary is `<root>/goscript/bin/<key>`. |
| Cache.LookupCache | cache.go:16-25 | A hit means the binary exists, and it returns the key's two paths. A miss means the binary does not exist and nothing else failed. Any other stat error is a failure carrying stat's own error, never a hit or a miss. |
| Prepare.LayoutDistinct | script.go:20-46 | The workspace, go.mod, main.go, go.sum, the binary directory, the build output and the binary are seven distinct paths. |
| Prepare.LayoutOf | script.go:25-47 | The layout of a key is go.mod, main.go and go.sum inside the key's workspace, the key's directory under the binary tree, and the build output at `bin.tmp` next to the binary. All seven paths are distinct. |
| Prepare.WriteWorkspace | script.go:20-37 | This stage succeeds exactly when the workspace may be created and go.mod and the source may be written. On success its effects are, in order: mkdir, `go env GOVERSION`, write go.mod, write the source. |
| Prepare.MakeDirAndTidy | script.go:39-44 | This stage succeeds exactly when the binary directory may be created, tidying succeeds, and go.mod and, when tidying records checksums, go.sum may be written. On success go.mod and go.sum hold what tidying wrote. In the modelled filesystem only the directory, go.mod and go.sum change. A command error is tidy's own trimmed diagnostic. |
| Prepare.TidyWrites | script.go:43 | Tidying's writes succeed exactly when go.mod, and go.sum when there are checksums, may be written. Afterwards they hold what tidying produced, and nothing else changes. |
| Prepare.RunTidy | script.go:43-44 | `go mod tidy` runs in the workspace and the stage succeeds exactly when tidying succeeds and go.mod, and go.sum when there are checksums, may be written. Afterwards they hold what tidying produced. A failed tidy returns at once with its trimmed diagnostic as `CommandFailed(go mod tidy)`. Only go.mod and go.sum change. |
| Prepare.SetUp | script.go:18-44 | The steps before the build succeed exactly when every location they write permits it and tidying succeeds. On success the log is exactly the set-up effects in source order, and go.mod holds what tidying left. |
| Prepare.RemoveQuietly | script.go:52-55 | Removing the build output never reports an error. Unless the path is denied, the path is gone and nothing else changes. When it is denied, nothing changes and nothing is logged. |
| Prepare.AbandonBuild | script.go:47-52 | After a failed build, any partial output left at the temporary path is removed, unless removal is denied. |
| Prepare.Publish | script.go:54-55 | The rename succeeds exactly when the temporary path is not denied and the binary may be replaced. The binary then holds the built output and the temporary file is gone. A failure is a link error naming both paths, and the temporary file is then removed. |
| Prepare.InstallBinary | script.go:47-55 | A compiled binary is written to the temporary path and renamed onto the binary. This succeeds exactly when both paths permit writing. The binary is touched only by the final rename. |
| Prepare.AfterBuild | script.go:47-55 | Publishing succeeds exactly when the build compiled and both paths permit writing. A failed build is reported with its trimmed diagnostic. The binary is touched only by the rename from the temporary path. |
| Prepare.BuildAndPublish | script.go:46-55 | `go build` runs first, writing to the temporary path, and is not run again later. |
| Prepare.Build | script.go:18-57 | On success the binary holds the compiled executable. On failure the binary is unchanged. Only a final rename from the temporary path touches it. |
| Prepare.PrepareScript | script.go:17-58 | A successful result is `Resolved(key, cacheBinPath(key), cacheWorkDir(key))` and the binary holds the compiled executable. On error the binary is unchanged. The binary is only ever created by renaming `bin + ".tmp"`. Nothing outside the key's seven locations is touched in the modelled filesystem. |
| Prepare.BuildSucceedsIffPermitted | script.go:20-55 | A build succeeds exactly when every location permits its write, go.sum included when tidying writes it, and both commands succeed. |
| Prepare.BuildTidiesFirst | script.go:18-47 | Whenever `go build` runs, everything logged before it is exactly the set-up sequence, and tidying succeeded. |
| Prepare.BuildFollowsSetUp | script.go:24-47 | In a log where `go build` follows exactly the set-up effects, the build runs eighth, or ninth with go.sum. It comes after the generated go.mod, tidying and tidying's rewrite of go.mod. |
| Prepare.PrepareSucceedsIffPermitted | script.go:20-55 | `PrepareScript` succeeds exactly when the workspace, go.mod, main.go, the binary directory, `bin.tmp` and `bin` permit their writes, go.sum does too when tidying writes it, tidying succeeds, and the build compiles. |
| Prepare.PrepareWritesWorkspace | script.go:24-44 | After success, go.mod and go.sum hold what tidying left and main.go holds the source without its `#!` line. No build output is left. |
| Prepare.PrepareTidiesFirst | script.go:24-51 | `go build` only ever runs as the eighth effect, or the ninth when tidying writes go.sum. Before it, the generated go.mod text was written (third effect), `go mod tidy` ran (sixth) and rewrote go.mod (seventh), on every build. |
| Prepare.PrepareCleansUp | script.go:52-55 | Once `go build` has run, a failure leaves no build output, unless its removal is denied. |
| Prepare.PrepareCommandErrors | script.go:43-52 | A command error is either tidy's failure or the build's failure, each carrying its trimmed standard error. |
| Prepare.PrepareLeavesRestAlone | script.go:17-58 | A path of the modelled filesystem outside the key's seven locations is unchanged. |
| Prepare.PrepareIsAtomic | script.go:46-55 | After any prefix of the effects, the binary is either what it was before or what it is at the end, never a partial build. |
| Os.TouchedLastIsAtomic | script.go:54 | A log that touches a path only with its last effect shows that path, after any prefix, either as before or as at the end. |
| Resolve.Resolve | main.go:59-70 | A success carries `HashContent(raw)` and the key's paths, and its binary exists. A present binary is a hit with no effect and no change. A failed lookup returns the lookup's own error, which is stat's error on the binary, with no effect and no change. |
| Resolve.ResolveMissBuilds | main.go:66-69 | On a miss, resolving is exactly `PrepareScript` under the content's key. |
| Resolve.ResolveAgainHits | main.go:59-70 | After a successful resolve, resolving the same content again, whatever the toolchain would do, is a hit. It returns the same result, runs no command and changes nothing. |
| Resolve.ResolveByKey | main.go:59-70 | When two contents whose digests share the first 12 bytes both resolve, they resolve to the same result, whatever the go commands do for each. A hit, or a failed lookup, is the same outcome for both. |
| Resolve.ResolveByKeyShape | main.go:59-70 | With the same outcomes of the go commands, contents whose digests share the first 12 bytes resolve to the same result and leave filesystems that differ at most in file contents. |
| Os.Rename | script.go:54-55 | The rename succeeds exactly when the source exists and neither path is denied, and the destination is not a directory. The node then moves from source to destination. Every failure is a link error naming both paths. Onto an existing directory the error is `EEXIST`, as Go's Unix `os.Rename` reports it. |
| Os.ShapeDecidesOutcome | script.go:20-55 | On two filesystems with the same paths, node kinds and denials, stat, mkdir, write, rename and remove fail with the same error or succeed alike, whatever data is written. The filesystems they leave again have the same shape. |
| Shapes.SetUpShape | script.go:18-44 | On filesystems of the same shape and with the same outcome of `go mod tidy`, the steps before the build fail with the same error or succeed alike for any two sources. |
| Shapes.BuildShape | script.go:18-57 | On filesystems of the same shape and with the same outcomes of the go commands, whole builds of any two sources fail with the same error or succeed alike, and leave filesystems of the same shape. |
| Shapes.BuildIgnoresSource | script.go:18-57 | With the same outcomes of the go commands, whether a build succeeds, and with which error it fails, does not depend on the source written to main.go: the program's own steps never read it. |
| Cli.Validate | cli.go:79-89 | Arguments are valid exactly when one of code and script path is given and at most one of output and migrate directory. The input rule is checked first, each failure carries its message, and success carries the empty message. |
| Cli.DeriveConfig | cli.go:54-74 | Input is inline exactly when code is given. The action is migrate when a migrate directory is given, else build when an output is given, else run. |
| Cli.ParseArgs | cli.go:44-77 | Parsing succeeds exactly when validation does, and the fields are copied verbatim. A usage error carries validation's non-empty message. |
| Cli.ParsedConsistent | cli.go:47-74 | Every parsed configuration names one input and at most one target, with the matching input mode and action. |
| Cli.ConsistentParsed | cli.go:54-89 | Conversely, every such configuration is what parsing its own fields produces. |
| Inline.IndentLine | inline.go:43-47 | A white-space line becomes empty. Any other line gets the prefix. |
| Inline.IndentAsBlock | inline.go:37-50 | Its contract is stated by `IndentAsBlockLines`, `IndentAsBlockEmpty` and `IndentAsBlockKeepsLineCount` below: the block corresponds to the text line by line, it is empty exactly for one blank line, and it has as many lines as the text. |
| Inline.IndentAsBlockLines | inline.go:37-50 | Line by line, the block has as many lines as the text. A blank line becomes empty, and every other line is the prefix followed by the line unchanged. |
| Inline.IndentAsBlockEmpty | inline.go:38-49 | The block is empty exactly for a single line of white space, the empty text included. |
| Inline.IndentAsBlockKeepsLineCount | inline.go:41-49 | Indenting keeps the number of newlines. |
| Inline.InlineBodyIgnoresOuterSpace | inline.go:18 | White space around the code does not change the block. |
| Inline.Splice | inline.go:20-25 | Without a marker the template is unchanged. Otherwise only the leftmost marker is replaced: the text before it is kept, the block starts there, and the text after the marker follows the block. |
| Inline.InlineToScript | inline.go:17-29 | Its contract is stated by `Splice`, which fixes the program handed to the import fixer as the template with the block of the trimmed code in place of the leftmost marker, and by `InlineToScriptIgnoresOuterSpace`. |
| Inline.InlineToScriptIgnoresOuterSpace | inline.go:17-29 | Code that differs only in surrounding white space gives the same program. |
| Text.TrimSpace | script.go:75 | The result has no white space at either end and only white space around it. It is empty exactly when the input is all white space. |
| Text.TrimSpaceIgnoresFrame | inline.go:18 | White space around a text does not change its trimming. |
| Text.TrimPrefix | script.go:75 | With the prefix present, prefix and result make up the input; otherwise the input is returned. |
| Encoding.HexRoundTrip | script.go:14 | Decoding the hexadecimal encoding gives back the bytes. |
| Encoding.HexEncodeInjective | script.go:14 | Two byte sequences have the same encoding exactly when they are equal. |
| Seqs.ReplaceFirst | inline.go:20-25 | Without an occurrence the input is unchanged. Otherwise only the leftmost occurrence is replaced. |
| Seqs.JoinSplit | inline.go:41-49 | Joining the pieces of a split gives back the text. |
| Seqs.SplitJoin | inline.go:41-49 | Splitting a join of separator-free pieces gives back the pieces. |
| Seqs.SplitCount | script.go:76-77 | A split has one more piece than there are separators. |

## Left out

- SHA-256 itself is a parameter; the key's properties hold for every 32-byte digest function.
- What the `go` commands do (run.go:28-40, script.go:73) is given by the `Toolchain` value. That value is fixed in advance rather than computed from the files the program writes, so whether a source compiles is part of the toolchain and not of the source. An error from `go env GOVERSION` is ignored in the source, so only its printed output is modelled. The `exec` error text before the trimmed diagnostic is not modelled.
- The files the `go` commands write are modelled as writes by the program. A compiled build writes its output to the temporary path, and a successful tidy writes go.mod and, with checksums, go.sum. When such a write is not permitted, the error is the `os` error; the real command would report a failed command with its diagnostic.
- The go command's own module cache and build cache (`GOMODCACHE`, `GOCACHE`), which tidying and building fill, are not part of the modelled filesystem. Downloads are not modelled either.
- Prepare.PrepareLeavesRestAlone: "unchanged" covers the modelled filesystem only. The go command's module and build caches change outside the key's seven locations. By default the build cache lies in the same user cache directory as the store. The directories above the workspace and above the binary directory, such as `<root>/goscript/work` and `<root>/goscript/bin`, are created by `os.MkdirAll` on a first build. Directory ancestors are not modelled.
- Prepare.PrepareScript: its confinement to the key's seven locations likewise leaves out the module and build caches. It also leaves out the ancestor directories that `os.MkdirAll` creates on a first build.
- Prepare.MakeDirAndTidy: `os.MkdirAll` also creates the missing ancestors of the binary directory, such as `<root>/goscript/bin` on a first build. The model records only the directory itself, so "only the directory, go.mod and go.sum change" leaves those ancestors out.
- Shapes.BuildIgnoresSource: the outcomes of `go mod tidy` and `go build` are a `Toolchain` value fixed in advance, not computed from the written main.go and go.mod. In the program a source with a compile error fails to build and one without succeeds, and tidying fails when an import cannot be resolved. The lemma therefore compares two sources under the same command outcomes only. It states that the program's own steps never read file contents, not that the build's outcome is independent of the source.
- Shapes.BuildShape: for the same reason, it compares two sources under the same command outcomes only.
- Shapes.SetUpShape: for the same reason, it compares two sources under the same outcome of `go mod tidy` only.
- Resolve.ResolveByKeyShape: for the same reason, it compares two contents under the same command outcomes only. `Resolve.ResolveByKey` states what holds for any outcomes: equal results when both succeed, and the same outcome on a hit or a failed lookup.
- Prepare.InstallBinary: an existing directory at the temporary path is modelled as a failed write (`IsDir`). The real `go build -o` writes the executable inside that directory and succeeds, and the rename then moves the directory onto the binary path. The filesystem records no directory contents, so this case is not modelled.
- Os.Remove removes a directory even when it has entries, because the filesystem records no directory contents. Go's `os.Remove` refuses a non-empty directory.
- `RunAndExit` (run.go:12-26) is left out: it is subprocess I/O and process exit.
- `main`, `read`, `copyBinary` and the action dispatch (main.go:16-57, main.go:72-80) are left out: they are file and process I/O.
- Flag parsing, usage printing and exiting in `ParseArgs` (cli.go:45-52) are left out. `Cli.CliArgs` is what the parser hands over, and exiting is the `UsageError` result.
- What `goimports` does (inline.go:32) and the embedded template are parameters of `Inline.InlineToScript`.
- Concurrency, and races between processes building the same key, are left out. Rename is an atomic step of the abstract filesystem.
- `filepath.Join` and `filepath.Dir` are modelled without path cleaning. `os.UserHomeDir` is modelled as `$HOME`, as on Unix.
- File modes (0o755, 0o644) are not modelled. `MkdirAll` records only the directory it is asked for, not its ancestors.
- Go strings are modelled as sequences of runes. Text that is not valid UTF-8 is not modelled.
- Errors from `os.Remove` are ignored, as in the source, so they appear in no result.
- `Resolved` is declared twice in the source (main.go:10-14, cache.go:10-14). It is modelled once, as `Cache.Resolved`.

=== FILE: cache.dfy ===
/** The content-addressed store (cache.go): where the store root lies for a
    given environment, the two locations a cache key maps to, and the
    lookup that tells a hit from a miss from an error. */
module Cache {
  import opened Wrappers
  import opened Seqs
  import opened Os

  /** A cache key: in practice 24 lower-case hexadecimal digits. */
  type CacheKey = string

  /** The outcome of resolving content to an executable. */
  datatype Resolved = Resolved(key: CacheKey, binary: Path, workDir: Path)

  /** The process environment, as a map from variable names to values. */
  type Environment = map<string, string>

  /** Go's `os.Getenv`: an unset variable reads as empty. */
  function Getenv(env: Environment, name: string): string {
    if name in env then env[name] else ""
  }

  /** Go's `os.UserHomeDir` on Unix: `$HOME`, an error when it is empty. */
  function UserHomeDir(env: Environment): Result<Path, string> {
    var home := Getenv(env, "HOME");
    if home == "" then Err("$HOME is not defined") else Ok(home)
  }

  /** Go's `filepath.Join` of components, without the path cleaning. */
  function PathJoin(elems: seq<string>): Path {
    Join(elems, '/')
  }

  /** Go's `filepath.Dir`, without the path cleaning: everything before the
      last separator, or "." when there is none. */
  function DirName(p: Path): Path {
    if |p| == 0 then "."
    else if p[|p| - 1] == '/' then p[..|p| - 1]
    else DirName(p[..|p| - 1])
  }

  lemma {:induction false} DirNameOfChild(dir: Path, name: string)
    requires '/' !in name
    ensures DirName(dir + "/" + name) == dir
    decreases |name|
  {
    var p := dir + "/" + name;
    if |name| == 0 {
      assert p[..|p| - 1] == dir;
    } else {
      assert p[|p| - 1] == name[|name| - 1];
      assert p[..|p| - 1] == dir + "/" + name[..|name| - 1];
      DirNameOfChild(dir, name[..|name| - 1]);
    }
  }

  /** The store root: a non-empty `XDG_CACHE_HOME`, else `$HOME/.cache`,
      else the current directory when no home directory is known. */
  function CacheRoot(env: Environment): (root: Path)
    ensures root != ""
    ensures Getenv(env, "XDG_CACHE_HOME") != "" ==> root == Getenv(env, "XDG_CACHE_HOME")
    ensures Getenv(env, "XDG_CACHE_HOME") == "" && Getenv(env, "HOME") != ""
            ==> root == Getenv(env, "HOME") + "/.cache"
    ensures Getenv(env, "XDG_CACHE_HOME") == "" && Getenv(env, "HOME") == "" ==> root == "."
  {
    var xdg := Getenv(env, "XDG_CACHE_HOME");
    if xdg != "" then xdg
    else
      match UserHomeDir(env)
      case Err(_) => "."
      case Ok(home) => JoinTwo(home, ".cache"); PathJoin([home, ".cache"])
  }

  /** The root depends on nothing but the two variables it reads. */
  lemma CacheRootReadsOnlyXdgAndHome(env1: Environment, env2: Environment)
    requires Getenv(env1, "XDG_CACHE_HOME") == Getenv(env2, "XDG_CACHE_HOME")
    requires Getenv(env1, "HOME") == Getenv(env2, "HOME")
    ensures CacheRoot(env1) == CacheRoot(env2)
  {
  }

  /** The subtree holding built binaries. */
  function BinTree(env: Environment): Path {
    CacheRoot(env) + "/goscript/bin/"
  }

  /** The subtree holding build workspaces. */
  function WorkTree(env: Environment): Path {
    CacheRoot(env) + "/goscript/work/"
  }

  lemma JoinTwo(a: string, b: string)
    ensures PathJoin([a, b]) == a + "/" + b
  {
    assert [a, b][1..] == [b];
    assert Join([b], '/') == b;
  }

  lemma JoinFour(a: string, b: string, c: string, d: string)
    ensures PathJoin([a, b, c, d]) == a + "/" + b + "/" + c + "/" + d
  {
    JoinTwo(c, d);
    assert [b, c, d][1..] == [c, d];
    assert PathJoin([b, c, d]) == b + "/" + c + "/" + d;
    assert [a, b, c, d][1..] == [b, c, d];
  }

  lemma JoinFive(a: string, b: string, c: string, d: string, e: string)
    ensures PathJoin([a, b, c, d, e]) == a + "/" + b + "/" + c + "/" + d + "/" + e
  {
    JoinFour(b, c, d, e);
    assert [a, b, c, d, e][1..] == [b, c, d, e];
  }

  /** The workspace of a key: `<root>/goscript/work/<key>`. */
  function CacheWorkDir(env: Environment, key: CacheKey): (p: Path)
    ensures p == WorkTree(env) + key
  {
    JoinFour(CacheRoot(env), "goscript", "work", key);
    PathJoin([CacheRoot(env), "goscript", "work", key])
  }

  /** The binary of a key: `<root>/goscript/bin/<key>/app`. */
  function CacheBinPath(env: Environment, key: CacheKey): (p: Path)
    ensures p == BinTree(env) + key + "/app"
  {
    JoinFive(CacheRoot(env), "goscript", "bin", key, "app");
    PathJoin([CacheRoot(env), "goscript", "bin", key, "app"])
  }

  /** Nothing under the binary subtree is ever under the workspace subtree. */
  lemma TreesDisjoint(env: Environment, p: Path, q: Path)
    requires BinTree(env) <= p && WorkTree(env) <= q
    ensures p != q
  {
    var n := |CacheRoot(env)| + 10;
    assert p[n] == BinTree(env)[n] == 'b';
    assert q[n] == WorkTree(env)[n] == 'w';
  }

  /** A binary path and a workspace path never coincide, whatever the keys. */
  lemma BinNeverWorkDir(env: Environment, k1: CacheKey, k2: CacheKey)
    ensures CacheBinPath(env, k1) != CacheWorkDir(env, k2)
  {
    TreesDisjoint(env, CacheBinPath(env, k1), CacheWorkDir(env, k2));
  }

  /** Different keys have different binaries and different workspaces. */
  lemma PathsInjective(env: Environment, k1: CacheKey, k2: CacheKey)
    requires k1 != k2
    ensures CacheBinPath(env, k1) != CacheBinPath(env, k2)
    ensures CacheWorkDir(env, k1) != CacheWorkDir(env, k2)
  {
    var t, w := BinTree(env), WorkTree(env);
    assert CacheBinPath(env, k1)[|t|..|t| + |k1|] == k1;
    assert CacheBinPath(env, k2)[|t|..|t| + |k2|] == k2;
    assert CacheWorkDir(env, k1)[|w|..] == k1;
    assert CacheWorkDir(env, k2)[|w|..] == k2;
  }

  /** A separator-free component after a separator contributes exactly
      itself to the split. */
  lemma SplitComponent(head: string, c: string, rest: string)
    requires '/' !in c
    ensures Split(head + ['/'] + (c + ['/'] + rest), '/') == Split(head, '/') + [c] + Split(rest, '/')
  {
    SplitAround(c, '/', rest);
    SplitFree(c, '/');
    SplitAround(head, '/', c + ['/'] + rest);
  }

  lemma SplitTwoComponents(root: string, a: string, b: string)
    requires '/' !in a && '/' !in b
    ensures Split(root + ['/'] + (a + ['/'] + b), '/') == Split(root, '/') + [a, b]
  {
    SplitComponent(root, a, b);
    SplitFree(b, '/');
  }

  lemma SplitFourComponents(root: string, a: string, b: string, c: string, d: string)
    requires '/' !in a && '/' !in b && '/' !in c && '/' !in d
    ensures Split(root + ['/'] + (a + ['/'] + b) + ['/'] + (c + ['/'] + d), '/')
         == Split(root, '/') + [a, b, c, d]
  {
    var s1 := root + ['/'] + (a + ['/'] + b);
    var x := Split(root, '/');
    SplitTwoComponents(root, a, b);
    SplitTwoComponents(s1, c, d);
    assert (x + [a, b]) + [c, d] == x + [a, b, c, d];
  }

  /** Read as a path, the binary location of a separator-free key is the
      root's components followed by `goscript`, `bin`, the key and `app`;
      its final component is `app`. */
  lemma BinPathComponents(env: Environment, key: CacheKey)
    requires '/' !in key
    ensures Split(CacheBinPath(env, key), '/')
         == Split(CacheRoot(env), '/') + ["goscript", "bin", key, "app"]
  {
    var root := CacheRoot(env);
    assert CacheBinPath(env, key)
        == root + ['/'] + ("goscript" + ['/'] + "bin") + ['/'] + (key + ['/'] + "app");
    SplitFourComponents(root, "goscript", "bin", key, "app");
  }

  /** The directory `PrepareScript` creates for a binary is the key's own
      directory under the binary subtree. */
  lemma BinPathDir(env: Environment, key: CacheKey)
    ensures DirName(CacheBinPath(env, key)) == BinTree(env) + key
  {
    assert BinTree(env) + key + "/app" == (BinTree(env) + key) + "/" + "app";
    DirNameOfChild(BinTree(env) + key, "app");
  }

  /** Lookup's three outcomes: a hit when the binary exists, a miss when it
      does not, and an error otherwise. */
  datatype Lookup = Hit(resolved: Resolved) | Miss | Failure(error: Error)

  /** Checks for the binary of `key` only; a hit never consults the
      workspace, and only a not-exist error counts as a miss. */
  function LookupCache(env: Environment, fs: Fs, key: CacheKey): (r: Lookup)
    ensures r.Hit? <==> CacheBinPath(env, key) in fs.nodes && CacheBinPath(env, key) !in fs.denied
    ensures r.Hit? ==> r.resolved == Resolved(key, CacheBinPath(env, key), CacheWorkDir(env, key))
    ensures r.Miss? <==> CacheBinPath(env, key) !in fs.nodes && CacheBinPath(env, key) !in fs.denied
    ensures r.Failure? <==> CacheBinPath(env, key) in fs.denied
    ensures r.Failure? ==> !IsNotExist(r.error) && Stat(fs, CacheBinPath(env, key)) == Some(r.error)
  {
    var bin := CacheBinPath(env, key);
    match Stat(fs, bin)
    case None => Hit(Resolved(key, bin, CacheWorkDir(env, key)))
    case Some(err) =>
      if IsNotExist(err) then Miss else Failure(err)
  }
}

=== FILE: cli.dfy ===
/** The command line (cli.go): the checks on the parsed flags and the
    configuration derived from them. Flag parsing itself is not modelled;
    `CliArgs` is what the parser hands over. */
module Cli {

  /** Where the program text comes from. */
  datatype InputMode = InputScript | InputInline

  /** What is done with the built binary. */
  datatype Action = ActionRun | ActionBuild | ActionMigrate

  datatype Config = Config(
    input: InputMode,
    action: Action,
    scriptPath: string,
    args: seq<string>,
    inlineCode: string,
    outputPath: string,
    migrateDir: string)

  /** The parsed command line: `-c` code, `-o` output, `-m` migrate
      directory, then the script path and its arguments. */
  datatype CliArgs = CliArgs(code: string, out: string, mig: string, script: string, args: seq<string>)

  const OneInputMessage: string := "Only one of inline code or input script should be set"
  const OneTargetMessage: string := "Can't have both output bin and migrate targets"

  /** Exactly one of inline code and a script path is required, and at most
      one of an output path and a migrate directory. The first rule is
      checked first. */
  function Validate(cli: CliArgs): (r: (bool, string))
    ensures r.0 <==> (cli.code != "" <==> cli.script == "") && (cli.out == "" || cli.mig == "")
    ensures r.0 ==> r.1 == ""
    ensures (cli.code != "") == (cli.script != "") ==> r.1 == OneInputMessage
    ensures (cli.code != "") != (cli.script != "") && !r.0 ==> r.1 == OneTargetMessage
  {
    if (cli.code != "") == (cli.script != "") then (false, OneInputMessage)
    else if cli.out != "" && cli.mig != "" then (false, OneTargetMessage)
    else (true, "")
  }

  /** The configuration of valid arguments: inline input when code is
      given; migrating takes precedence over building, and running is the
      default. */
  function DeriveConfig(cli: CliArgs): (cfg: Config)
    ensures cfg.input == InputInline <==> cli.code != ""
    ensures cfg.action == ActionMigrate <==> cli.mig != ""
    ensures cfg.action == ActionBuild <==> cli.mig == "" && cli.out != ""
    ensures cfg.action == ActionRun <==> cli.mig == "" && cli.out == ""
  {
    Config(
      if cli.code != "" then InputInline else InputScript,
      if cli.mig != "" then ActionMigrate else if cli.out != "" then ActionBuild else ActionRun,
      cli.script, cli.args, cli.code, cli.out, cli.mig)
  }

  /** The arguments a configuration was derived from. */
  function ArgsOf(cfg: Config): CliArgs {
    CliArgs(cfg.inlineCode, cfg.outputPath, cfg.migrateDir, cfg.scriptPath, cfg.args)
  }

  /** The result of parsing: a configuration, or the usage error the program
      prints before exiting with status 1. */
  datatype Parsed = Parsed(config: Config) | UsageError(message: string)

  function ParseArgs(cli: CliArgs): (p: Parsed)
    ensures p.Parsed? <==> Validate(cli).0
    ensures p.UsageError? ==> p.message == Validate(cli).1 && p.message != ""
    ensures p.Parsed? ==> ArgsOf(p.config) == cli
  {
    var (ok, message) := Validate(cli);
    if ok then Parsed(DeriveConfig(cli)) else UsageError(message)
  }

  /** A configuration that names one input, at most one target, and the
      action and input mode that go with them. */
  predicate Consistent(cfg: Config) {
    && (cfg.inlineCode != "" <==> cfg.scriptPath == "")
    && (cfg.outputPath == "" || cfg.migrateDir == "")
    && (cfg.input == InputInline <==> cfg.inlineCode != "")
    && (cfg.action == ActionMigrate <==> cfg.migrateDir != "")
    && (cfg.action == ActionBuild <==> cfg.outputPath != "")
  }

  /** Every configuration parsing produces is consistent ... */
  lemma ParsedConsistent(cli: CliArgs)
    ensures ParseArgs(cli).Parsed? ==> Consistent(ParseArgs(cli).config)
  {
    if ParseArgs(cli).Parsed? {
      assert Validate(cli).0;
    }
  }

  /** ... and every consistent configuration is what parsing its own
      arguments produces. */
  lemma ConsistentParsed(cfg: Config)
    requires Consistent(cfg)
    ensures ParseArgs(ArgsOf(cfg)) == Parsed(cfg)
  {
    assert Validate(ArgsOf(cfg)).0;
    var d := DeriveConfig(ArgsOf(cfg));
    assert d.input == cfg.input && d.action == cfg.action;
  }
}

=== FILE: encoding.dfy ===
/** Bytes and the two encodings the program applies to them: UTF-8, for the
    `[]byte(string)` conversion of generated text, and lower-case
    hexadecimal, Go's `hex.EncodeToString`. */
module Encoding {

  newtype byte = b: int | 0 <= b < 256

  type Bytes = seq<byte>

  // ---------------------------------------------------------------------
  // UTF-8
  // ---------------------------------------------------------------------

  predicate IsAscii(s: string) {
    forall i :: 0 <= i < |s| ==> s[i] as int < 128
  }

  /** The UTF-8 encoding of one Unicode scalar value. */
  function Utf8Rune(c: char): (r: Bytes)
    ensures 1 <= |r| <= 4
    ensures c as int < 128 <==> |r| == 1
    ensures c as int < 128 ==> r[0] as int == c as int
  {
    var n := c as int;
    if n < 0x80 then [n as byte]
    else if n < 0x800 then [(0xC0 + n / 0x40) as byte, (0x80 + n % 0x40) as byte]
    else if n < 0x1_0000 then
      [(0xE0 + n / 0x1000) as byte, (0x80 + n / 0x40 % 0x40) as byte, (0x80 + n % 0x40) as byte]
    else
      [(0xF0 + n / 0x4_0000) as byte, (0x80 + n / 0x1000 % 0x40) as byte,
       (0x80 + n / 0x40 % 0x40) as byte, (0x80 + n % 0x40) as byte]
  }

  /** Go's `[]byte(s)`: the UTF-8 encoding of a string. */
  function Utf8(s: string): (r: Bytes)
    ensures |r| >= |s|
    ensures IsAscii(s) ==> |r| == |s| && forall i :: 0 <= i < |s| ==> r[i] as int == s[i] as int
  {
    if |s| == 0 then []
    else
      var rest := Utf8(s[1..]);
      assert IsAscii(s) ==> IsAscii(s[1..]) by {
        if IsAscii(s) {
          forall i | 0 <= i < |s| - 1 ensures s[1..][i] as int < 128 {
            assert s[1..][i] == s[i + 1];
          }
        }
      }
      Utf8Rune(s[0]) + rest
  }

  // ---------------------------------------------------------------------
  // Hexadecimal
  // ---------------------------------------------------------------------

  const HexDigits: string := "0123456789abcdef"

  predicate IsLowerHex(c: char) {
    ('0' <= c <= '9') || ('a' <= c <= 'f')
  }

  function HexDigit(n: int): (c: char)
    requires 0 <= n < 16
    ensures IsLowerHex(c)
  {
    HexDigits[n]
  }

  /** The inverse of `HexDigit`. */
  function HexValue(c: char): (n: int)
    requires IsLowerHex(c)
    ensures 0 <= n < 16
    ensures HexDigit(n) == c
  {
    if c <= '9' then c as int - '0' as int else c as int - 'a' as int + 10
  }

  /** Go's `hex.EncodeToString`: two lower-case digits per byte, high
      nibble first. */
  function HexEncode(d: Bytes): (r: string)
    ensures |r| == 2 * |d|
    ensures forall i :: 0 <= i < |r| ==> IsLowerHex(r[i])
  {
    if |d| == 0 then ""
    else [HexDigit(d[0] as int / 16), HexDigit(d[0] as int % 16)] + HexEncode(d[1..])
  }

  predicate IsHexString(s: string) {
    |s| % 2 == 0 && forall i :: 0 <= i < |s| ==> IsLowerHex(s[i])
  }

  /** Reads back an even-length lower-case hexadecimal string. */
  function HexDecode(s: string): (d: Bytes)
    requires IsHexString(s)
    ensures 2 * |d| == |s|
  {
    if |s| == 0 then []
    else
      assert IsHexString(s[2..]) by {
        forall i | 0 <= i < |s| - 2 ensures IsLowerHex(s[2..][i]) {
          assert s[2..][i] == s[i + 2];
        }
      }
      [(HexValue(s[0]) * 16 + HexValue(s[1])) as byte] + HexDecode(s[2..])
  }

  lemma HexValueOfDigit(n: int)
    requires 0 <= n < 16
    ensures HexValue(HexDigit(n)) == n
  {
    assert HexDigits[0] == '0' && HexDigits[1] == '1' && HexDigits[2] == '2' && HexDigits[3] == '3';
    assert HexDigits[4] == '4' && HexDigits[5] == '5' && HexDigits[6] == '6' && HexDigits[7] == '7';
    assert HexDigits[8] == '8' && HexDigits[9] == '9' && HexDigits[10] == 'a' && HexDigits[11] == 'b';
    assert HexDigits[12] == 'c' && HexDigits[13] == 'd' && HexDigits[14] == 'e' && HexDigits[15] == 'f';
  }

  /** Decoding an encoding gives back the bytes. */
  lemma {:induction false} HexRoundTrip(d: Bytes)
    ensures HexDecode(HexEncode(d)) == d
  {
    if |d| > 0 {
      var s := HexEncode(d);
      var hi, lo := d[0] as int / 16, d[0] as int % 16;
      HexValueOfDigit(hi);
      HexValueOfDigit(lo);
      assert s[0] == HexDigit(hi) && s[1] == HexDigit(lo);
      assert s[2..] == HexEncode(d[1..]);
      HexRoundTrip(d[1..]);
      assert d == [d[0]] + d[1..];
    }
  }

  /** Different bytes never share an encoding. */
  lemma HexEncodeInjective(a: Bytes, b: Bytes)
    ensures HexEncode(a) == HexEncode(b) <==> a == b
  {
    HexRoundTrip(a);
    HexRoundTrip(b);
  }

  /** The first `2 * k` digits encode exactly the first `k` bytes. */
  lemma {:induction false} HexEncodePrefix(d: Bytes, k: nat)
    requires k <= |d|
    ensures HexEncode(d)[..2 * k] == HexEncode(d[..k])
  {
    if k > 0 {
      HexEncodePrefix(d[1..], k - 1);
      assert d[..k][1..] == d[1..][..k - 1];
      assert d[..k][0] == d[0];
    }
  }
}

=== FILE: inline.dfy ===
/** Inline code (inline.go): the code given with `-c` is indented as a
    block and spliced into a program template in place of a marker line. */
module Inline {
  import opened Wrappers
  import opened Seqs
  import opened Text
  import opened Encoding

  /** The line of the template the code replaces. */
  const InlineMarker: string := "// {{INLINE_BODY}}"

  /** The indentation of the spliced code: one tab. */
  const Tab: string := "\t"

  /** One line of a block: white space only becomes empty, anything else
      gets the prefix. */
  function IndentLine(line: string, prefix: string): (r: string)
    ensures AllSpace(line) ==> r == ""
    ensures !AllSpace(line) ==> r == prefix + line
  {
    if TrimSpace(line) == "" then "" else prefix + line
  }

  function IndentLines(lines: seq<string>, prefix: string): (r: seq<string>)
    ensures |r| == |lines|
    ensures forall i :: 0 <= i < |lines| ==> r[i] == IndentLine(lines[i], prefix)
  {
    if lines == [] then [] else [IndentLine(lines[0], prefix)] + IndentLines(lines[1..], prefix)
  }

  /** Go's `indentAsBlock`: every line of `s` indented by `prefix`, and
      blank lines emptied. */
  function IndentAsBlock(s: string, prefix: string): string {
    if s == "" then "" else Join(IndentLines(Split(s, '\n'), prefix), '\n')
  }

  /** Read line by line, the block has as many lines as `s`, and line `i`
      is empty when line `i` of `s` is blank and is the prefix followed by
      it otherwise. */
  lemma IndentAsBlockLines(s: string, prefix: string)
    requires '\n' !in prefix
    ensures var lines := Split(s, '\n');
      var block := Split(IndentAsBlock(s, prefix), '\n');
      && |block| == |lines|
      && forall i :: 0 <= i < |lines| ==>
           && (AllSpace(lines[i]) ==> block[i] == "")
           && (!AllSpace(lines[i]) ==> block[i] == prefix + lines[i])
  {
    var lines := Split(s, '\n');
    var indented := IndentLines(lines, prefix);
    if s == "" {
      assert lines == [""];
    } else {
      SplitPiecesFree(s, '\n');
      forall k | 0 <= k < |indented| ensures '\n' !in indented[k] {
        assert '\n' !in lines[k];
      }
      SplitJoin(indented, '\n');
    }
  }

  /** The block is empty exactly for a single line of white space, the
      empty text included. */
  lemma IndentAsBlockEmpty(s: string, prefix: string)
    requires '\n' !in prefix
    ensures IndentAsBlock(s, prefix) == "" <==> AllSpace(s) && '\n' !in s
  {
    var r := IndentAsBlock(s, prefix);
    IndentAsBlockLines(s, prefix);
    JoinSplit(r, '\n');
    if '\n' in s {
      SplitCount(s, '\n');
      assert |Split(r, '\n')| >= 2;
    } else {
      SplitFree(s, '\n');
      assert Split(r, '\n') == [r] by {
        SplitPiecesFree(r, '\n');
        assert '\n' !in Split(r, '\n')[0];
      }
    }
  }

  /** Indenting keeps the number of lines. */
  lemma IndentAsBlockKeepsLineCount(s: string, prefix: string)
    requires '\n' !in prefix
    ensures Count(IndentAsBlock(s, prefix), '\n') == Count(s, '\n')
  {
    IndentAsBlockLines(s, prefix);
    SplitCount(s, '\n');
    SplitCount(IndentAsBlock(s, prefix), '\n');
  }

  /** The block spliced for the code: the code without its surrounding
      white space, indented by a tab. */
  function InlineBody(code: string): string {
    IndentAsBlock(TrimSpace(code), Tab)
  }

  /** White space around the code makes no difference to the block. */
  lemma InlineBodyIgnoresOuterSpace(pre: string, code: string, post: string)
    requires AllSpace(pre) && AllSpace(post)
    ensures InlineBody(pre + code + post) == InlineBody(code)
  {
    TrimSpaceIgnoresFrame(pre, code, post);
  }

  /** The template's marker line, as bytes. */
  function MarkerBytes(): Bytes {
    Utf8(InlineMarker)
  }

  /** The program text before its imports are fixed: the template with the
      leftmost occurrence of `marker` replaced by `block`, or the template
      unchanged when it has no marker. */
  function Splice(template: Bytes, marker: Bytes, block: Bytes): (src: Bytes)
    ensures (forall j: nat :: !OccursAt(template, marker, j)) ==> src == template
    ensures forall i: nat :: IsFirstOccurrence(template, marker, i) ==>
              && OccursAt(src, block, i)
              && src[..i] == template[..i]
              && src[i + |block|..] == template[i + |marker|..]
  {
    ReplaceFirst(template, marker, block)
  }

  /** Go's `HandleImports`: `goimports` (the parameter `goimports`, which
      is not modelled) either rewrites the source or fails, and its error is
      reported with a `goimports: ` prefix. */
  function HandleImports(goimports: Bytes -> Result<Bytes, string>, src: Bytes): Result<Bytes, string> {
    match goimports(src)
    case Ok(out) => Ok(out)
    case Err(e) => Err("goimports: " + e)
  }

  /** Go's `InlineToScript`: the template (a parameter here) with the
      block of the code in place of its marker, and its imports fixed. */
  function InlineToScript(template: Bytes, goimports: Bytes -> Result<Bytes, string>, code: string): Result<Bytes, string> {
    HandleImports(goimports, Splice(template, MarkerBytes(), Utf8(InlineBody(code))))
  }

  /** Code differing only in surrounding white space yields the same
      program. */
  lemma InlineToScriptIgnoresOuterSpace(template: Bytes, goimports: Bytes -> Result<Bytes, string>,
                                        pre: string, code: string, post: string)
    requires AllSpace(pre) && AllSpace(post)
    ensures InlineToScript(template, goimports, pre + code + post) == InlineToScript(template, goimports, code)
  {
    InlineBodyIgnoresOuterSpace(pre, code, post);
  }
}

=== FILE: os.dfy ===
/** An abstract model of the parts of Go's `os` and `os/exec` packages the
    program relies on: the filesystem as a map from paths to nodes, the
    file operations performed on it, the external commands run, and a log
    of the effects that took place, which replays to the final state. */
module Os {
  import opened Wrappers
  import opened Encoding

  type Path = string

  datatype Node = Dir | File(data: Bytes)

  /** A filesystem. Every operation on a path in `denied` fails with a
      permission error and leaves the filesystem as it was. */
  datatype Fs = Fs(nodes: map<Path, Node>, denied: set<Path>)

  /** Why an operation failed: Go's `ENOENT`, `EACCES`, `EISDIR`, `ENOTDIR`
      and `EEXIST`. */
  datatype Reason = NotExist | Permission | IsDir | NotDir | Exist

  /** The external commands the program runs. */
  datatype Command =
    | GoEnvVersion                                    // go env GOVERSION
    | GoModTidy(dir: Path)                            // go mod tidy, run in dir
    | GoBuild(output: Path, source: Path, dir: Path)  // go build -trimpath -o output source

  /** The errors that reach the caller: a `*PathError` from an `os`
      operation on one path, a `*LinkError` from `os.Rename`, which names
      both paths, or a failed command with its trimmed standard error. */
  datatype Error =
    | PathError(op: string, path: Path, reason: Reason)
    | LinkError(op: string, src: Path, dst: Path, reason: Reason)
    | CommandFailed(cmd: Command, stderr: string)

  /** An effect that took place: a successful filesystem change, or the
      invocation of an external command (whatever its outcome). */
  datatype Effect =
    | Mkdir(path: Path)
    | Write(path: Path, data: Bytes)
    | Exec(cmd: Command)
    | Move(src: Path, dst: Path)
    | Delete(path: Path)

  function Get(fs: Fs, p: Path): Option<Node> {
    if p in fs.nodes then Some(fs.nodes[p]) else None
  }

  /** Go's `os.IsNotExist`. */
  predicate IsNotExist(e: Error) {
    e.PathError? && e.reason == NotExist
  }

  /** Go's `os.Stat`, reduced to the error it returns, if any. */
  function Stat(fs: Fs, p: Path): (r: Option<Error>)
    ensures r.None? <==> p in fs.nodes && p !in fs.denied
    ensures r.Some? && IsNotExist(r.value) <==> p !in fs.nodes && p !in fs.denied
  {
    if p in fs.denied then Some(PathError("stat", p, Permission))
    else if p in fs.nodes then None
    else Some(PathError("stat", p, NotExist))
  }

  /** A directory may be created at `p`, or is already there. */
  predicate CanMkdir(fs: Fs, p: Path) {
    p !in fs.denied && (p in fs.nodes ==> fs.nodes[p].Dir?)
  }

  /** A regular file may be created at `p`, or replaced there. */
  predicate CanWrite(fs: Fs, p: Path) {
    p !in fs.denied && (p in fs.nodes ==> fs.nodes[p].File?)
  }

  /** Go's `os.MkdirAll`: succeeds without change when `p` is already a
      directory. */
  function MkdirAll(fs: Fs, p: Path): (r: Result<Fs, Error>)
    ensures r.Ok? <==> CanMkdir(fs, p)
    ensures r.Ok? ==> r.value == fs.(nodes := fs.nodes[p := Dir])
  {
    if p in fs.denied then Err(PathError("mkdir", p, Permission))
    else if p in fs.nodes && fs.nodes[p].File? then Err(PathError("mkdir", p, NotDir))
    else Ok(fs.(nodes := fs.nodes[p := Dir]))
  }

  /** Go's `os.WriteFile`: creates or truncates a regular file. */
  function WriteFile(fs: Fs, p: Path, data: Bytes): (r: Result<Fs, Error>)
    ensures r.Ok? <==> CanWrite(fs, p)
    ensures r.Ok? ==> r.value == fs.(nodes := fs.nodes[p := File(data)])
  {
    if p in fs.denied then Err(PathError("open", p, Permission))
    else if p in fs.nodes && fs.nodes[p].Dir? then Err(PathError("open", p, IsDir))
    else Ok(fs.(nodes := fs.nodes[p := File(data)]))
  }

  /** Go's `os.Rename` on Unix, taken as one atomic step: the node at `src`
      appears at `dst`, replacing a file there, and `src` is gone. Onto an
      existing directory it fails with `EEXIST` once `src` is found. */
  function Rename(fs: Fs, src: Path, dst: Path): (r: Result<Fs, Error>)
    ensures r.Ok? <==> src !in fs.denied && src in fs.nodes && CanWrite(fs, dst)
    ensures r.Ok? ==> r.value == fs.(nodes := (fs.nodes - {src})[dst := fs.nodes[src]])
    ensures r.Err? ==> r.error.LinkError? && r.error.src == src && r.error.dst == dst
    ensures src !in fs.denied && dst !in fs.denied && src in fs.nodes && dst in fs.nodes && fs.nodes[dst].Dir? ==>
      r == Err(LinkError("rename", src, dst, Exist))
  {
    if src in fs.denied || dst in fs.denied then Err(LinkError("rename", src, dst, Permission))
    else if src !in fs.nodes then Err(LinkError("rename", src, dst, NotExist))
    else if dst in fs.nodes && fs.nodes[dst].Dir? then Err(LinkError("rename", src, dst, Exist))
    else Ok(fs.(nodes := (fs.nodes - {src})[dst := fs.nodes[src]]))
  }

  /** Go's `os.Remove`. */
  function Remove(fs: Fs, p: Path): (r: Result<Fs, Error>)
    ensures r.Ok? <==> p !in fs.denied && p in fs.nodes
    ensures r.Ok? ==> r.value == fs.(nodes := fs.nodes - {p})
  {
    if p in fs.denied then Err(PathError("remove", p, Permission))
    else if p !in fs.nodes then Err(PathError("remove", p, NotExist))
    else Ok(fs.(nodes := fs.nodes - {p}))
  }

  /** Two filesystems with the same paths, the same kind of node at each,
      and the same denied paths: they differ at most in file contents. */
  predicate SameShape(a: Fs, b: Fs) {
    && a.denied == b.denied && a.nodes.Keys == b.nodes.Keys
    && forall p :: p in a.nodes ==> (a.nodes[p].Dir? <==> b.nodes[p].Dir?)
  }

  /** Two outcomes of an operation that agree in everything but file
      contents: both fail with the same error, or both succeed with
      filesystems of the same shape. */
  predicate SameOutcome(r1: Result<Fs, Error>, r2: Result<Fs, Error>) {
    && r1.Ok? == r2.Ok?
    && (r1.Err? ==> r1.error == r2.error)
    && (r1.Ok? ==> SameShape(r1.value, r2.value))
  }

  /** No operation looks at file contents: on filesystems of the same shape
      each one fails alike or succeeds alike, whatever data is written. */
  lemma ShapeDecidesOutcome(a: Fs, b: Fs, p: Path, q: Path, d1: Bytes, d2: Bytes)
    requires SameShape(a, b)
    ensures Stat(a, p) == Stat(b, p)
    ensures CanMkdir(a, p) == CanMkdir(b, p) && CanWrite(a, p) == CanWrite(b, p)
    ensures SameOutcome(MkdirAll(a, p), MkdirAll(b, p))
    ensures SameOutcome(WriteFile(a, p, d1), WriteFile(b, p, d2))
    ensures SameOutcome(Rename(a, p, q), Rename(b, p, q))
    ensures SameOutcome(Remove(a, p), Remove(b, p))
  {
    if WriteFile(a, p, d1).Ok? {
      var a', b' := WriteFile(a, p, d1).value, WriteFile(b, p, d2).value;
      assert a'.nodes.Keys == a.nodes.Keys + {p} == b'.nodes.Keys;
    }
    if MkdirAll(a, p).Ok? {
      var a', b' := MkdirAll(a, p).value, MkdirAll(b, p).value;
      assert a'.nodes.Keys == a.nodes.Keys + {p} == b'.nodes.Keys;
    }
    if Rename(a, p, q).Ok? {
      var a', b' := Rename(a, p, q).value, Rename(b, p, q).value;
      assert a'.nodes.Keys == a.nodes.Keys - {p} + {q} == b'.nodes.Keys;
    }
    if Remove(a, p).Ok? {
      var a', b' := Remove(a, p).value, Remove(b, p).value;
      assert a'.nodes.Keys == a.nodes.Keys - {p} == b'.nodes.Keys;
    }
  }

  /** The state change one logged effect stands for. */
  function Apply(fs: Fs, e: Effect): (fs': Fs)
    ensures fs'.denied == fs.denied
  {
    match e
    case Mkdir(p) => MkdirAll(fs, p).GetOr(fs)
    case Write(p, data) => WriteFile(fs, p, data).GetOr(fs)
    case Exec(_) => fs
    case Move(src, dst) => Rename(fs, src, dst).GetOr(fs)
    case Delete(p) => Remove(fs, p).GetOr(fs)
  }

  /** The state reached by applying a log of effects in order. */
  function Replay(fs: Fs, log: seq<Effect>): (fs': Fs)
    ensures fs'.denied == fs.denied
  {
    if |log| == 0 then fs else Apply(Replay(fs, log[..|log| - 1]), log[|log| - 1])
  }

  /** The effect may change what is stored at `p`. */
  predicate Touches(e: Effect, p: Path) {
    match e
    case Mkdir(q) => q == p
    case Write(q, _) => q == p
    case Exec(_) => false
    case Move(src, dst) => src == p || dst == p
    case Delete(q) => q == p
  }

  lemma ReplaySnoc(fs: Fs, log: seq<Effect>, e: Effect)
    ensures Replay(fs, log + [e]) == Apply(Replay(fs, log), e)
  {
    assert (log + [e])[..|log|] == log;
  }

  /** Effects that never touch `p` leave it as it was. */
  lemma {:induction false} ReplayUntouched(fs: Fs, log: seq<Effect>, p: Path)
    requires forall i :: 0 <= i < |log| ==> !Touches(log[i], p)
    ensures Get(Replay(fs, log), p) == Get(fs, p)
  {
    if |log| > 0 {
      var init := log[..|log| - 1];
      ReplayUntouched(fs, init, p);
    }
  }

  /** Replaying two logs in turn is replaying their concatenation. */
  lemma {:induction false} ReplayAppend(fs: Fs, a: seq<Effect>, b: seq<Effect>)
    ensures Replay(fs, a + b) == Replay(Replay(fs, a), b)
    decreases |b|
  {
    if |b| == 0 {
      assert a + b == a;
    } else {
      var init := b[..|b| - 1];
      ReplayAppend(fs, a, init);
      assert (a + b)[..|a + b| - 1] == a + init;
    }
  }

  /** Every effect of the log stays within `paths`. */
  ghost predicate Confined(log: seq<Effect>, paths: set<Path>) {
    forall i, q :: 0 <= i < |log| && Touches(log[i], q) ==> q in paths
  }

  /** Only the last effect of the log touches `p`, and that effect is `e`. */
  ghost predicate TouchedLastBy(log: seq<Effect>, p: Path, e: Effect) {
    forall i :: 0 <= i < |log| && Touches(log[i], p) ==> i == |log| - 1 && log[i] == e
  }

  lemma ConfinedAppend(a: seq<Effect>, b: seq<Effect>, paths: set<Path>)
    requires Confined(a, paths) && Confined(b, paths)
    ensures Confined(a + b, paths)
  {
    forall i, q | 0 <= i < |a + b| && Touches((a + b)[i], q) ensures q in paths {
      if i >= |a| {
        assert (a + b)[i] == b[i - |a|];
      }
    }
  }

  lemma ConfinedWeaken(log: seq<Effect>, small: set<Path>, large: set<Path>)
    requires Confined(log, small) && small <= large
    ensures Confined(log, large)
  {
  }

  /** A log confined away from `p` never touches it, so vacuously touches
      it only at its end. */
  lemma ConfinedAvoids(log: seq<Effect>, paths: set<Path>, p: Path, e: Effect)
    requires Confined(log, paths) && p !in paths
    ensures TouchedLastBy(log, p, e)
  {
  }

  /** Effects confined away from `p` before a log that touches `p` only at
      its end keep that property. */
  lemma TouchedLastByAppend(a: seq<Effect>, b: seq<Effect>, pa: set<Path>, p: Path, e: Effect)
    requires Confined(a, pa) && p !in pa && TouchedLastBy(b, p, e)
    ensures TouchedLastBy(a + b, p, e)
  {
    forall i | 0 <= i < |a + b| && Touches((a + b)[i], p)
      ensures i == |a + b| - 1 && (a + b)[i] == e
    {
      if i >= |a| {
        assert (a + b)[i] == b[i - |a|];
      }
    }
  }

  /** A log confined away from `p` leaves `p` as it was. */
  lemma ConfinedUntouched(fs: Fs, log: seq<Effect>, paths: set<Path>, p: Path)
    requires Confined(log, paths) && p !in paths
    ensures Get(Replay(fs, log), p) == Get(fs, p)
  {
    ReplayUntouched(fs, log, p);
  }

  /** Before its last effect, a log that touches `p` only at the end has
      left `p` as it was. */
  lemma TouchedLastByPrefix(fs: Fs, log: seq<Effect>, p: Path, e: Effect, k: nat)
    requires TouchedLastBy(log, p, e) && k < |log|
    ensures Get(Replay(fs, log[..k]), p) == Get(fs, p)
  {
    forall i | 0 <= i < |log[..k]| ensures !Touches(log[..k][i], p) {
      assert log[..k][i] == log[i];
    }
    ReplayUntouched(fs, log[..k], p);
  }

  /** Every prefix of such a log shows `p` either as it was or as the whole
      log leaves it. */
  lemma TouchedLastIsAtomic(fs: Fs, log: seq<Effect>, p: Path, e: Effect, k: nat)
    requires TouchedLastBy(log, p, e) && k <= |log|
    ensures var seen := Get(Replay(fs, log[..k]), p);
      seen == Get(fs, p) || seen == Get(Replay(fs, log), p)
  {
    if k < |log| {
      TouchedLastByPrefix(fs, log, p, e, k);
    } else {
      assert log[..k] == log;
    }
  }
}

=== FILE: prepare.dfy ===
/** `PrepareScript` (script.go): on a cache miss the workspace of a key is
    filled with a go.mod and the stripped source, the module is tidied, and
    the binary is built next to its final location and renamed into place.
    The external `go` commands are described by a `Toolchain` record that
    fixes what each of them does; every other step acts on the modelled
    filesystem, and the effects that take place are logged in order. */
module Prepare {
  import opened Wrappers
  import opened Text
  import opened Encoding
  import opened Os
  import opened Cache
  import opened Script

  /** What `go mod tidy` does when it runs: it rewrites go.mod with the
      requirements of the source's imports and, when there are any, writes
      their checksums to go.sum; or it fails with a diagnostic. */
  datatype TidyRun = Tidied(mod: Bytes, sum: Option<Bytes>) | TidyFails(stderr: string)

  /** What `go build` does when it runs: it compiles an executable, or fails
      with a diagnostic, possibly leaving a partial output file behind. */
  datatype BuildRun = Compiled(exe: Bytes) | BuildFails(stderr: string, partial: Option<Bytes>)

  /** The behaviour of the toolchain: what `go env GOVERSION` prints and how
      tidying and building turn out. */
  datatype Toolchain = Toolchain(goEnvOutput: string, tidy: TidyRun, build: BuildRun)

  /** A stage of the build: the error that ended it, if any, the state it
      reached, and the effects that took place, in order. */
  datatype Stage = Stage(error: Option<Error>, fs: Fs, log: seq<Effect>)

  /** What `PrepareScript` returns, with the state it leaves and its log. */
  datatype Outcome = Outcome(result: Result<Resolved, Error>, fs: Fs, log: seq<Effect>)

  /** A file of the work directory: `go.mod`, `go.sum` or `main.go`. */
  function WorkFile(work: Path, name: string): (p: Path)
    ensures p == work + "/" + name
  {
    JoinTwo(work, name);
    PathJoin([work, name])
  }

  /** The build output sits next to the binary, so that publishing it is a
      rename within one directory. */
  function TmpPath(bin: Path): Path {
    bin + ".tmp"
  }

  /** The bytes written to go.mod for a key under a toolchain. */
  function GoMod(key: CacheKey, tc: Toolchain): Bytes {
    Utf8(GoModText(key, GoVersionLine(tc.goEnvOutput)))
  }

  /** The seven locations a build works with never coincide. */
  lemma LayoutDistinct(env: Environment, key: CacheKey)
    ensures var work, bin := CacheWorkDir(env, key), CacheBinPath(env, key);
      var dir, tmp := DirName(bin), TmpPath(bin);
      var files := {WorkFile(work, "go.mod"), WorkFile(work, "main.go"), WorkFile(work, "go.sum")};
      && dir == BinTree(env) + key
      && WorkFile(work, "go.mod") != WorkFile(work, "main.go")
      && WorkFile(work, "go.mod") != WorkFile(work, "go.sum")
      && WorkFile(work, "main.go") != WorkFile(work, "go.sum")
      && work !in files && bin != work && bin !in files && bin != dir
      && tmp != work && tmp !in files && tmp != dir && tmp != bin
      && dir != work && dir !in files
  {
    var work, bin := CacheWorkDir(env, key), CacheBinPath(env, key);
    var dir, tmp := DirName(bin), TmpPath(bin);
    var m, s, u := WorkFile(work, "go.mod"), WorkFile(work, "main.go"), WorkFile(work, "go.sum");
    BinPathDir(env, key);
    var t, w := BinTree(env), WorkTree(env);
    assert t <= bin && t <= tmp && t <= dir;
    assert w <= work && w <= m && w <= s && w <= u;
    assert m[|work| + 1..] == "go.mod" && s[|work| + 1..] == "main.go" && u[|work| + 1..] == "go.sum";
    TreesDisjoint(env, bin, work);
    TreesDisjoint(env, bin, m);
    TreesDisjoint(env, bin, s);
    TreesDisjoint(env, bin, u);
    TreesDisjoint(env, tmp, work);
    TreesDisjoint(env, tmp, m);
    TreesDisjoint(env, tmp, s);
    TreesDisjoint(env, tmp, u);
    TreesDisjoint(env, dir, work);
    TreesDisjoint(env, dir, m);
    TreesDisjoint(env, dir, s);
    TreesDisjoint(env, dir, u);
  }

  /** The locations a build works with: the workspace with its go.mod,
      source and go.sum, the binary's directory, the build output and the
      binary. */
  datatype Layout = Layout(work: Path, modPath: Path, srcPath: Path, sumPath: Path, dir: Path, tmp: Path, bin: Path)

  /** The locations the steps before the build may change: the workspace,
      its three files and the binary's directory. */
  function SetUpLocations(l: Layout): set<Path> {
    {l.work, l.modPath, l.srcPath, l.sumPath, l.dir}
  }

  /** No two locations of the layout coincide. */
  predicate Distinct(l: Layout) {
    && l.work != l.modPath && l.work != l.srcPath && l.work != l.sumPath
    && l.modPath != l.srcPath && l.modPath != l.sumPath && l.srcPath != l.sumPath
    && l.dir != l.work && l.dir != l.modPath && l.dir != l.srcPath && l.dir != l.sumPath
    && l.tmp != l.bin && l.tmp !in SetUpLocations(l) && l.bin !in SetUpLocations(l)
  }

  /** The layout of a key. */
  function LayoutOf(env: Environment, key: CacheKey): (l: Layout)
    ensures Distinct(l)
    ensures l.work == CacheWorkDir(env, key) && l.bin == CacheBinPath(env, key)
    ensures l.dir == BinTree(env) + key
    ensures l.modPath == l.work + "/go.mod" && l.srcPath == l.work + "/main.go" && l.sumPath == l.work + "/go.sum"
    ensures l.tmp == l.bin + ".tmp"
  {
    var work, bin := CacheWorkDir(env, key), CacheBinPath(env, key);
    LayoutDistinct(env, key);
    assert WorkFile(work, "go.mod") == work + "/go.mod";
    assert WorkFile(work, "main.go") == work + "/main.go";
    assert WorkFile(work, "go.sum") == work + "/go.sum";
    Layout(work, WorkFile(work, "go.mod"), WorkFile(work, "main.go"), WorkFile(work, "go.sum"), DirName(bin), TmpPath(bin), bin)
  }

  /** No effect of the log is a run of `go build`. */
  ghost predicate NoBuild(log: seq<Effect>) {
    forall i :: 0 <= i < |log| && log[i].Exec? ==> !log[i].cmd.GoBuild?
  }

  lemma NoBuildAppend(a: seq<Effect>, b: seq<Effect>)
    requires NoBuild(a) && NoBuild(b)
    ensures NoBuild(a + b)
  {
    forall i | 0 <= i < |a + b| && (a + b)[i].Exec? ensures !(a + b)[i].cmd.GoBuild? {
      if i >= |a| {
        assert (a + b)[i] == b[i - |a|];
      }
    }
  }

  /** `os.Remove` with its error ignored. */
  function RemoveQuietly(fs: Fs, p: Path): (st: Stage)
    ensures st.error.None?
    ensures Replay(fs, st.log) == st.fs
    ensures p !in fs.denied ==> p !in st.fs.nodes
    ensures p !in fs.denied ==> st.fs == fs.(nodes := fs.nodes - {p})
    ensures p in fs.denied ==> st.fs == fs && st.log == []
    ensures Confined(st.log, {p}) && NoBuild(st.log)
  {
    assert p !in fs.nodes ==> fs.nodes - {p} == fs.nodes;
    match Remove(fs, p)
    case Ok(fs') =>
      ReplaySnoc(fs, [], Delete(p));
      Stage(None, fs', [Delete(p)])
    case Err(_) => Stage(None, fs, [])
  }

  /** The effects of filling the workspace, in source order: the directory,
      `go env GOVERSION`, go.mod, then the source. */
  function WorkspaceEffects(work: Path, modPath: Path, srcPath: Path, mod: Bytes, src: Bytes): seq<Effect> {
    [Mkdir(work), Exec(GoEnvVersion), Write(modPath, mod), Write(srcPath, src)]
  }

  /** Creates the workspace and writes go.mod, after asking the toolchain
      for its version, and then the source. */
  function WriteWorkspace(fs: Fs, work: Path, modPath: Path, srcPath: Path, mod: Bytes, src: Bytes): (st: Stage)
    requires work != modPath && work != srcPath && modPath != srcPath
    ensures Replay(fs, st.log) == st.fs
    ensures st.error.None? <==> CanMkdir(fs, work) && CanWrite(fs, modPath) && CanWrite(fs, srcPath)
    ensures st.error.None? ==> st.log == WorkspaceEffects(work, modPath, srcPath, mod, src)
    ensures st.error.None? ==> Get(st.fs, modPath) == Some(File(mod)) && Get(st.fs, srcPath) == Some(File(src))
    ensures Confined(st.log, {work, modPath, srcPath}) && NoBuild(st.log)
  {
    var log1 := [Mkdir(work)];
    var log2 := log1 + [Exec(GoEnvVersion)];
    var log3 := log2 + [Write(modPath, mod)];
    match MkdirAll(fs, work)
    case Err(e) => Stage(Some(e), fs, [])
    case Ok(fs1) =>
      ReplaySnoc(fs, [], Mkdir(work));
      ReplaySnoc(fs, log1, Exec(GoEnvVersion));
      match WriteFile(fs1, modPath, mod)
      case Err(e) => Stage(Some(e), fs1, log2)
      case Ok(fs2) =>
        ReplaySnoc(fs, log2, Write(modPath, mod));
        match WriteFile(fs2, srcPath, src)
        case Err(e) => Stage(Some(e), fs2, log3)
        case Ok(fs3) =>
          ReplaySnoc(fs, log3, Write(srcPath, src));
          Stage(None, fs3, log3 + [Write(srcPath, src)])
  }

  /** After a failed build: the partial output the compiler may have left
      at `tmp` is removed again, ignoring errors. */
  function AbandonBuild(fs: Fs, tmp: Path, partial: Option<Bytes>): (st: Stage)
    ensures Replay(fs, st.log) == st.fs
    ensures tmp !in fs.denied ==> tmp !in st.fs.nodes
    ensures Confined(st.log, {tmp}) && NoBuild(st.log)
  {
    var left :=
      if partial.Some? && WriteFile(fs, tmp, partial.value).Ok?
      then Stage(None, WriteFile(fs, tmp, partial.value).value, [Write(tmp, partial.value)])
      else Stage(None, fs, []);
    assert Replay(fs, left.log) == left.fs by {
      if partial.Some? && WriteFile(fs, tmp, partial.value).Ok? {
        ReplaySnoc(fs, [], Write(tmp, partial.value));
      }
    }
    var clean := RemoveQuietly(left.fs, tmp);
    ReplayAppend(fs, left.log, clean.log);
    ConfinedAppend(left.log, clean.log, {tmp});
    Stage(None, clean.fs, left.log + clean.log)
  }

  /** Renames the built output at `tmp` onto `bin`; when that fails, `tmp`
      is removed, ignoring errors. */
  function Publish(fs: Fs, tmp: Path, bin: Path): (st: Stage)
    requires tmp != bin && tmp in fs.nodes
    ensures Replay(fs, st.log) == st.fs
    ensures st.error.None? <==> tmp !in fs.denied && CanWrite(fs, bin)
    ensures st.error.None? ==> Get(st.fs, bin) == Some(fs.nodes[tmp]) && tmp !in st.fs.nodes
    ensures st.error.Some? ==> st.error.value.LinkError? && st.error.value.src == tmp && st.error.value.dst == bin
    ensures st.error.Some? && tmp !in fs.denied ==> tmp !in st.fs.nodes
    ensures Confined(st.log, {tmp, bin}) && NoBuild(st.log)
    ensures TouchedLastBy(st.log, bin, Move(tmp, bin)) && (st.error.Some? ==> Confined(st.log, {tmp}))
  {
    match Rename(fs, tmp, bin)
    case Err(e) =>
      var clean := RemoveQuietly(fs, tmp);
      Stage(Some(e), clean.fs, clean.log)
    case Ok(fs') =>
      ReplaySnoc(fs, [], Move(tmp, bin));
      Stage(None, fs', [Move(tmp, bin)])
  }

  /** What follows the build command: publishing its output, or cleaning
      up after it. */
  function AfterBuild(fs: Fs, cmd: Command, tmp: Path, bin: Path, build: BuildRun): (st: Stage)
    requires tmp != bin
    ensures Replay(fs, st.log) == st.fs
    ensures st.error.None? <==> build.Compiled? && CanWrite(fs, tmp) && CanWrite(fs, bin)
    ensures st.error.None? ==> Get(st.fs, bin) == Some(File(build.exe)) && tmp !in st.fs.nodes
    ensures st.error.Some? && tmp !in fs.denied ==> tmp !in st.fs.nodes
    ensures build.BuildFails? ==> st.error == Some(CommandFailed(cmd, TrimSpace(build.stderr)))
    ensures build.Compiled? && st.error.Some? ==> !st.error.value.CommandFailed?
    ensures Confined(st.log, {tmp, bin}) && NoBuild(st.log)
    ensures TouchedLastBy(st.log, bin, Move(tmp, bin)) && (st.error.Some? ==> Confined(st.log, {tmp}))
  {
    match build
    case BuildFails(stderr, partial) =>
      var abandoned := AbandonBuild(fs, tmp, partial);
      ConfinedWeaken(abandoned.log, {tmp}, {tmp, bin});
      ConfinedAvoids(abandoned.log, {tmp}, bin, Move(tmp, bin));
      Stage(Some(CommandFailed(cmd, TrimSpace(stderr))), abandoned.fs, abandoned.log)
    case Compiled(exe) =>
      InstallBinary(fs, tmp, bin, exe)
  }

  /** The compiled binary written to the temporary path and moved into
      place; on failure the temporary file is removed. */
  function InstallBinary(fs: Fs, tmp: Path, bin: Path, exe: Bytes): (st: Stage)
    requires tmp != bin
    ensures Replay(fs, st.log) == st.fs
    ensures st.error.None? <==> CanWrite(fs, tmp) && CanWrite(fs, bin)
    ensures st.error.None? ==> Get(st.fs, bin) == Some(File(exe)) && tmp !in st.fs.nodes
    ensures st.error.Some? ==> !st.error.value.CommandFailed? && (tmp !in fs.denied ==> tmp !in st.fs.nodes)
    ensures Confined(st.log, {tmp, bin}) && NoBuild(st.log)
    ensures TouchedLastBy(st.log, bin, Move(tmp, bin)) && (st.error.Some? ==> Confined(st.log, {tmp}))
  {
    match WriteFile(fs, tmp, exe)
    case Err(e) =>
      var clean := RemoveQuietly(fs, tmp);
      ConfinedWeaken(clean.log, {tmp}, {tmp, bin});
      Stage(Some(e), clean.fs, clean.log)
    case Ok(fs') =>
      var published := Publish(fs', tmp, bin);
      var written := [Write(tmp, exe)];
      ReplaySnoc(fs, [], Write(tmp, exe));
      ReplayAppend(fs, written, published.log);
      assert Confined(written, {tmp});
      ConfinedWeaken(written, {tmp}, {tmp, bin});
      ConfinedAppend(written, published.log, {tmp, bin});
      TouchedLastByAppend(written, published.log, {tmp}, bin, Move(tmp, bin));
      assert published.error.Some? ==> Confined(written + published.log, {tmp}) by {
        if published.error.Some? {
          ConfinedAppend(written, published.log, {tmp});
        }
      }
      Stage(published.error, published.fs, written + published.log)
  }


  /** Builds into `tmp` and publishes the result at `bin`; on any failure
      `tmp` is removed, ignoring errors, and the failure returned. */
  function BuildAndPublish(fs: Fs, work: Path, src: Path, tmp: Path, bin: Path, build: BuildRun): (st: Stage)
    requires tmp != bin
    ensures Replay(fs, st.log) == st.fs
    ensures |st.log| >= 1 && st.log[0] == Exec(GoBuild(tmp, src, work)) && NoBuild(st.log[1..])
    ensures st.error.None? <==> build.Compiled? && CanWrite(fs, tmp) && CanWrite(fs, bin)
    ensures st.error.None? ==> Get(st.fs, bin) == Some(File(build.exe)) && tmp !in st.fs.nodes
    ensures st.error.Some? && tmp !in fs.denied ==> tmp !in st.fs.nodes
    ensures build.BuildFails? ==>
      st.error == Some(CommandFailed(GoBuild(tmp, src, work), TrimSpace(build.stderr)))
    ensures build.Compiled? && st.error.Some? ==> !st.error.value.CommandFailed?
    ensures Confined(st.log, {tmp, bin})
    ensures TouchedLastBy(st.log, bin, Move(tmp, bin)) && (st.error.Some? ==> Confined(st.log, {tmp}))
  {
    var cmd := GoBuild(tmp, src, work);
    var run := [Exec(cmd)];
    var rest := AfterBuild(fs, cmd, tmp, bin, build);
    ReplaySnoc(fs, [], Exec(cmd));
    ReplayAppend(fs, run, rest.log);
    assert Confined(run, {}) && Confined(run, {tmp}) && Confined(run, {tmp, bin});
    ConfinedAppend(run, rest.log, {tmp, bin});
    TouchedLastByAppend(run, rest.log, {}, bin, Move(tmp, bin));
    assert rest.error.Some? ==> Confined(run + rest.log, {tmp}) by {
      if rest.error.Some? {
        ConfinedAppend(run, rest.log, {tmp});
      }
    }
    assert (run + rest.log)[1..] == rest.log;
    Stage(rest.error, rest.fs, run + rest.log)
  }

  /** The go.sum write of a successful `go mod tidy`, if it writes one. */
  function SumWrite(sumPath: Path, sum: Option<Bytes>): seq<Effect> {
    if sum.Some? then [Write(sumPath, sum.value)] else []
  }

  /** The effects of a successful `go mod tidy` in `work`. */
  function TidyEffects(work: Path, modPath: Path, sumPath: Path, mod: Bytes, sum: Option<Bytes>): seq<Effect> {
    [Exec(GoModTidy(work)), Write(modPath, mod)] + SumWrite(sumPath, sum)
  }

  /** A `go mod tidy` that succeeds: it runs, then leaves in the workspace
      the rewritten go.mod and, when it has checksums to record, go.sum. */
  function TidyWrites(fs: Fs, work: Path, modPath: Path, sumPath: Path, mod: Bytes, sum: Option<Bytes>): (st: Stage)
    requires modPath != sumPath
    ensures Replay(fs, st.log) == st.fs
    ensures st.error.None? <==> CanWrite(fs, modPath) && (sum.Some? ==> CanWrite(fs, sumPath))
    ensures st.error.None? ==> st.log == TidyEffects(work, modPath, sumPath, mod, sum)
    ensures st.error.None? ==>
      Get(st.fs, modPath) == Some(File(mod)) && (sum.Some? ==> Get(st.fs, sumPath) == Some(File(sum.value)))
    ensures st.error.Some? ==> st.error.value.PathError?
    ensures Confined(st.log, {modPath, sumPath}) && NoBuild(st.log)
  {
    var run := [Exec(GoModTidy(work))];
    var wrote := run + [Write(modPath, mod)];
    ReplaySnoc(fs, [], Exec(GoModTidy(work)));
    match WriteFile(fs, modPath, mod)
    case Err(e) => Stage(Some(e), fs, run)
    case Ok(fs1) =>
      ReplaySnoc(fs, run, Write(modPath, mod));
      if sum.None? then Stage(None, fs1, wrote)
      else
        match WriteFile(fs1, sumPath, sum.value)
        case Err(e) => Stage(Some(e), fs1, wrote)
        case Ok(fs2) =>
          ReplaySnoc(fs, wrote, Write(sumPath, sum.value));
          Stage(None, fs2, wrote + [Write(sumPath, sum.value)])
  }

  /** Runs `go mod tidy` in `work`, and on success makes its writes. */
  function RunTidy(fs: Fs, work: Path, modPath: Path, sumPath: Path, tidy: TidyRun): (st: Stage)
    requires modPath != sumPath
    ensures Replay(fs, st.log) == st.fs
    ensures st.error.None? <==> tidy.Tidied? && CanWrite(fs, modPath) && (tidy.sum.Some? ==> CanWrite(fs, sumPath))
    ensures st.error.None? ==> st.log == TidyEffects(work, modPath, sumPath, tidy.mod, tidy.sum)
    ensures st.error.None? ==>
      && Get(st.fs, modPath) == Some(File(tidy.mod))
      && (tidy.sum.Some? ==> Get(st.fs, sumPath) == Some(File(tidy.sum.value)))
    ensures st.error.Some? && st.error.value.CommandFailed? ==>
      tidy.TidyFails? && st.error.value == CommandFailed(GoModTidy(work), TrimSpace(tidy.stderr))
    ensures Confined(st.log, {modPath, sumPath}) && NoBuild(st.log)
  {
    if tidy.Tidied? then TidyWrites(fs, work, modPath, sumPath, tidy.mod, tidy.sum)
    else
      ReplaySnoc(fs, [], Exec(GoModTidy(work)));
      Stage(Some(CommandFailed(GoModTidy(work), TrimSpace(tidy.stderr))), fs, [Exec(GoModTidy(work))])
  }

  /** Creates the binary's directory and runs `go mod tidy` in `work`. */
  function MakeDirAndTidy(fs: Fs, work: Path, modPath: Path, sumPath: Path, dir: Path, tidy: TidyRun): (st: Stage)
    requires dir != modPath && dir != sumPath && modPath != sumPath
    ensures Replay(fs, st.log) == st.fs
    ensures st.error.None? <==>
      CanMkdir(fs, dir) && tidy.Tidied? && CanWrite(fs, modPath) && (tidy.sum.Some? ==> CanWrite(fs, sumPath))
    ensures st.error.None? ==> st.log == [Mkdir(dir)] + TidyEffects(work, modPath, sumPath, tidy.mod, tidy.sum)
    ensures st.error.None? ==>
      && Get(st.fs, modPath) == Some(File(tidy.mod))
      && (tidy.sum.Some? ==> Get(st.fs, sumPath) == Some(File(tidy.sum.value)))
    ensures st.error.Some? && st.error.value.CommandFailed? ==>
      tidy.TidyFails? && st.error.value == CommandFailed(GoModTidy(work), TrimSpace(tidy.stderr))
    ensures Confined(st.log, {dir, modPath, sumPath}) && NoBuild(st.log)
  {
    match MkdirAll(fs, dir)
    case Err(e) => Stage(Some(e), fs, [])
    case Ok(fs') =>
      var made := [Mkdir(dir)];
      ReplaySnoc(fs, [], Mkdir(dir));
      assert Confined(made, {dir, modPath, sumPath}) && NoBuild(made);
      assert CanWrite(fs', modPath) == CanWrite(fs, modPath) && CanWrite(fs', sumPath) == CanWrite(fs, sumPath);
      var tidied := RunTidy(fs', work, modPath, sumPath, tidy);
      ReplayAppend(fs, made, tidied.log);
      ConfinedWeaken(tidied.log, {modPath, sumPath}, {dir, modPath, sumPath});
      ConfinedAppend(made, tidied.log, {dir, modPath, sumPath});
      NoBuildAppend(made, tidied.log);
      Stage(tidied.error, tidied.fs, made + tidied.log)
  }

  /** The effects of the steps before the build, when they all succeed. */
  function SetUpEffects(l: Layout, mod: Bytes, src: Bytes, tidy: TidyRun): seq<Effect>
    requires tidy.Tidied?
  {
    WorkspaceEffects(l.work, l.modPath, l.srcPath, mod, src)
      + ([Mkdir(l.dir)] + TidyEffects(l.work, l.modPath, l.sumPath, tidy.mod, tidy.sum))
  }

  /** A log whose every `go build` follows exactly the set-up effects
      runs it as the eighth effect, or the ninth when go.sum is written, with
      the generated go.mod written third, `go mod tidy` run sixth and its
      rewrite of go.mod seventh. */
  lemma BuildFollowsSetUp(log: seq<Effect>, l: Layout, mod: Bytes, src: Bytes, tidy: TidyRun)
    requires forall i :: 0 <= i < |log| && log[i].Exec? && log[i].cmd.GoBuild? ==>
      tidy.Tidied? && log[..i] == SetUpEffects(l, mod, src, tidy)
    ensures forall i :: 0 <= i < |log| && log[i].Exec? && log[i].cmd.GoBuild? ==>
      && tidy.Tidied? && i == (if tidy.sum.Some? then 8 else 7)
      && log[2] == Write(l.modPath, mod) && log[5] == Exec(GoModTidy(l.work))
      && log[6] == Write(l.modPath, tidy.mod)
  {
    forall i | 0 <= i < |log| && log[i].Exec? && log[i].cmd.GoBuild?
      ensures && i == (if tidy.sum.Some? then 8 else 7)
              && log[2] == Write(l.modPath, mod) && log[5] == Exec(GoModTidy(l.work))
              && log[6] == Write(l.modPath, tidy.mod)
    {
      var e := SetUpEffects(l, mod, src, tidy);
      assert log[..i] == e;
      assert log[2] == e[2] && log[5] == e[5] && log[6] == e[6];
    }
  }

  /** The steps before the build: the workspace, the binary's directory and
      `go mod tidy`, which runs on every build. */
  function SetUp(fs: Fs, l: Layout, mod: Bytes, src: Bytes, tidy: TidyRun): (st: Stage)
    requires Distinct(l)
    ensures Replay(fs, st.log) == st.fs
    ensures st.error.None? <==>
      && CanMkdir(fs, l.work) && CanWrite(fs, l.modPath) && CanWrite(fs, l.srcPath) && CanMkdir(fs, l.dir)
      && tidy.Tidied? && (tidy.sum.Some? ==> CanWrite(fs, l.sumPath))
    ensures st.error.None? ==> st.log == SetUpEffects(l, mod, src, tidy)
    ensures st.error.None? ==>
      && Get(st.fs, l.modPath) == Some(File(tidy.mod)) && Get(st.fs, l.srcPath) == Some(File(src))
      && (tidy.sum.Some? ==> Get(st.fs, l.sumPath) == Some(File(tidy.sum.value)))
    ensures st.error.Some? && st.error.value.CommandFailed? ==>
      tidy.TidyFails? && st.error.value == CommandFailed(GoModTidy(l.work), TrimSpace(tidy.stderr))
    ensures Confined(st.log, SetUpLocations(l)) && NoBuild(st.log)
  {
    var ws := WriteWorkspace(fs, l.work, l.modPath, l.srcPath, mod, src);
    ConfinedWeaken(ws.log, {l.work, l.modPath, l.srcPath}, SetUpLocations(l));
    if ws.error.Some? then ws
    else
      ConfinedUntouched(fs, ws.log, {l.work, l.modPath, l.srcPath}, l.dir);
      ConfinedUntouched(fs, ws.log, {l.work, l.modPath, l.srcPath}, l.sumPath);
      assert CanMkdir(ws.fs, l.dir) == CanMkdir(fs, l.dir);
      assert CanWrite(ws.fs, l.sumPath) == CanWrite(fs, l.sumPath);
      assert CanWrite(ws.fs, l.modPath);
      var rest := MakeDirAndTidy(ws.fs, l.work, l.modPath, l.sumPath, l.dir, tidy);
      ReplayAppend(fs, ws.log, rest.log);
      ConfinedWeaken(rest.log, {l.dir, l.modPath, l.sumPath}, SetUpLocations(l));
      ConfinedAppend(ws.log, rest.log, SetUpLocations(l));
      assert rest.error.None? ==> Get(rest.fs, l.srcPath) == Some(File(src)) by {
        ConfinedUntouched(ws.fs, rest.log, {l.dir, l.modPath, l.sumPath}, l.srcPath);
      }
      NoBuildAppend(ws.log, rest.log);
      Stage(rest.error, rest.fs, ws.log + rest.log)
  }

  /** The whole build for a layout: the set-up, then building and
      publishing the binary. */
  function Build(fs: Fs, l: Layout, mod: Bytes, src: Bytes, tc: Toolchain): (st: Stage)
    requires Distinct(l)
    ensures Replay(fs, st.log) == st.fs
    ensures st.error.None? ==> tc.build.Compiled? && Get(st.fs, l.bin) == Some(File(tc.build.exe))
    ensures st.error.Some? ==> Get(st.fs, l.bin) == Get(fs, l.bin)
    ensures TouchedLastBy(st.log, l.bin, Move(l.tmp, l.bin))
    ensures Confined(st.log, SetUpLocations(l) + {l.tmp, l.bin})
  {
    var setup := SetUp(fs, l, mod, src, tc.tidy);
    var all := SetUpLocations(l) + {l.tmp, l.bin};
    ConfinedWeaken(setup.log, SetUpLocations(l), all);
    if setup.error.Some? then
      ConfinedUntouched(fs, setup.log, SetUpLocations(l), l.bin);
      Stage(setup.error, setup.fs, setup.log)
    else
      var built := BuildAndPublish(setup.fs, l.work, l.srcPath, l.tmp, l.bin, tc.build);
      ReplayAppend(fs, setup.log, built.log);
      ConfinedWeaken(built.log, {l.tmp, l.bin}, all);
      ConfinedAppend(setup.log, built.log, all);
      TouchedLastByAppend(setup.log, built.log, SetUpLocations(l), l.bin, Move(l.tmp, l.bin));
      assert built.error.Some? ==> Get(built.fs, l.bin) == Get(fs, l.bin) by {
        if built.error.Some? {
          var before := SetUpLocations(l) + {l.tmp};
          ConfinedWeaken(setup.log, SetUpLocations(l), before);
          ConfinedWeaken(built.log, {l.tmp}, before);
          ConfinedAppend(setup.log, built.log, before);
          ConfinedUntouched(fs, setup.log + built.log, before, l.bin);
        }
      }
      Stage(built.error, built.fs, setup.log + built.log)
  }

  /** Every location `PrepareScript` may change for a key. */
  function Footprint(env: Environment, key: CacheKey): set<Path> {
    var l := LayoutOf(env, key);
    SetUpLocations(l) + {l.tmp, l.bin}
  }

  /** Builds the content `raw` under `key`: go.mod and the stripped source
      are written to the key's workspace, the module is tidied, and the
      binary is built and moved into place. The first failure is returned;
      after it only the removal of the build output follows, when the build
      or the rename failed. */
  function PrepareScript(env: Environment, fs: Fs, key: CacheKey, raw: Bytes, tc: Toolchain): (o: Outcome)
    ensures Replay(fs, o.log) == o.fs
    ensures o.result.Ok? ==> o.result.value == Resolved(key, CacheBinPath(env, key), CacheWorkDir(env, key))
    ensures o.result.Ok? ==>
      tc.build.Compiled? && Get(o.fs, CacheBinPath(env, key)) == Some(File(tc.build.exe))
    ensures o.result.Err? ==> Get(o.fs, CacheBinPath(env, key)) == Get(fs, CacheBinPath(env, key))
    ensures TouchedLastBy(o.log, CacheBinPath(env, key), Move(TmpPath(CacheBinPath(env, key)), CacheBinPath(env, key)))
    ensures Confined(o.log, Footprint(env, key))
  {
    var l := LayoutOf(env, key);
    var st := Build(fs, l, GoMod(key, tc), StripShebang(raw), tc);
    Outcome(if st.error.Some? then Err(st.error.value) else Ok(Resolved(key, l.bin, l.work)), st.fs, st.log)
  }

  lemma SameEntrySamePermissions(fs1: Fs, fs2: Fs, p: Path)
    requires fs1.denied == fs2.denied && Get(fs1, p) == Get(fs2, p)
    ensures CanWrite(fs1, p) == CanWrite(fs2, p)
  {
  }

  /** A build succeeds exactly when every location it writes permits the
      write and both toolchain commands succeed. */
  lemma BuildSucceedsIffPermitted(fs: Fs, l: Layout, mod: Bytes, src: Bytes, tc: Toolchain)
    requires Distinct(l)
    ensures Build(fs, l, mod, src, tc).error.None? <==>
      && CanMkdir(fs, l.work) && CanWrite(fs, l.modPath) && CanWrite(fs, l.srcPath) && CanMkdir(fs, l.dir)
      && tc.tidy.Tidied? && (tc.tidy.sum.Some? ==> CanWrite(fs, l.sumPath))
      && tc.build.Compiled? && CanWrite(fs, l.tmp) && CanWrite(fs, l.bin)
  {
    var setup := SetUp(fs, l, mod, src, tc.tidy);
    ConfinedUntouched(fs, setup.log, SetUpLocations(l), l.tmp);
    ConfinedUntouched(fs, setup.log, SetUpLocations(l), l.bin);
    SameEntrySamePermissions(fs, setup.fs, l.tmp);
    SameEntrySamePermissions(fs, setup.fs, l.bin);
  }

  /** A successful build leaves in the workspace the go.mod and go.sum that
      tidying wrote and the source, and no build output behind. */
  lemma BuildKeepsWorkspace(fs: Fs, l: Layout, mod: Bytes, src: Bytes, tc: Toolchain)
    requires Distinct(l)
    ensures var st := Build(fs, l, mod, src, tc);
      st.error.None? ==>
        && tc.tidy.Tidied?
        && Get(st.fs, l.modPath) == Some(File(tc.tidy.mod)) && Get(st.fs, l.srcPath) == Some(File(src))
        && (tc.tidy.sum.Some? ==> Get(st.fs, l.sumPath) == Some(File(tc.tidy.sum.value)))
        && l.tmp !in st.fs.nodes
  {
    var setup := SetUp(fs, l, mod, src, tc.tidy);
    if setup.error.None? {
      var built := BuildAndPublish(setup.fs, l.work, l.srcPath, l.tmp, l.bin, tc.build);
      ConfinedUntouched(setup.fs, built.log, {l.tmp, l.bin}, l.modPath);
      ConfinedUntouched(setup.fs, built.log, {l.tmp, l.bin}, l.srcPath);
      ConfinedUntouched(setup.fs, built.log, {l.tmp, l.bin}, l.sumPath);
    }
  }

  /** `go build` runs only once the set-up has completed: everything before
      it is the workspace, the generated go.mod, the source, the binary's
      directory and `go mod tidy` with its writes. */
  lemma BuildTidiesFirst(fs: Fs, l: Layout, mod: Bytes, src: Bytes, tc: Toolchain)
    requires Distinct(l)
    ensures var log := Build(fs, l, mod, src, tc).log;
      forall i :: 0 <= i < |log| && log[i].Exec? && log[i].cmd.GoBuild? ==>
        && tc.tidy.Tidied? && log[..i] == SetUpEffects(l, mod, src, tc.tidy)
        && log[i] == Exec(GoBuild(l.tmp, l.srcPath, l.work))
  {
    var setup := SetUp(fs, l, mod, src, tc.tidy);
    if setup.error.None? {
      var built := BuildAndPublish(setup.fs, l.work, l.srcPath, l.tmp, l.bin, tc.build);
      var log := setup.log + built.log;
      forall i | 0 <= i < |log| && log[i].Exec? && log[i].cmd.GoBuild?
        ensures log[..i] == setup.log && log[i] == built.log[0]
      {
        assert log[..|setup.log|] == setup.log;
      }
    }
  }

  /** Once `go build` has run, a failed build leaves no output behind, unless
      removing it is not permitted. */
  lemma BuildCleansUp(fs: Fs, l: Layout, mod: Bytes, src: Bytes, tc: Toolchain)
    requires Distinct(l)
    ensures var st := Build(fs, l, mod, src, tc);
      st.error.Some? && Exec(GoBuild(l.tmp, l.srcPath, l.work)) in st.log && l.tmp !in fs.denied ==>
        l.tmp !in st.fs.nodes
  {
    var setup := SetUp(fs, l, mod, src, tc.tidy);
    if setup.error.Some? {
      assert Exec(GoBuild(l.tmp, l.srcPath, l.work)) !in setup.log;
    }
  }

  /** A failed command is reported with its trimmed diagnostic: `go mod tidy`
      when it fails, otherwise `go build`. */
  lemma BuildCommandErrors(fs: Fs, l: Layout, mod: Bytes, src: Bytes, tc: Toolchain)
    requires Distinct(l)
    ensures var st := Build(fs, l, mod, src, tc);
      st.error.Some? && st.error.value.CommandFailed? ==>
        || (tc.tidy.TidyFails? && st.error.value == CommandFailed(GoModTidy(l.work), TrimSpace(tc.tidy.stderr)))
        || (tc.tidy.Tidied? && tc.build.BuildFails?
            && st.error.value == CommandFailed(GoBuild(l.tmp, l.srcPath, l.work), TrimSpace(tc.build.stderr)))
  {
    var setup := SetUp(fs, l, mod, src, tc.tidy);
  }

  /** `PrepareScript` succeeds exactly when the workspace, go.mod, the
      source, the binary's directory, the build output and the binary may
      all be written, and both toolchain commands succeed. */
  lemma PrepareSucceedsIffPermitted(env: Environment, fs: Fs, key: CacheKey, raw: Bytes, tc: Toolchain)
    ensures var work, bin := CacheWorkDir(env, key), CacheBinPath(env, key);
      PrepareScript(env, fs, key, raw, tc).result.Ok? <==>
        && CanMkdir(fs, work) && CanWrite(fs, work + "/go.mod") && CanWrite(fs, work + "/main.go")
        && CanMkdir(fs, BinTree(env) + key)
        && tc.tidy.Tidied? && (tc.tidy.sum.Some? ==> CanWrite(fs, work + "/go.sum"))
        && tc.build.Compiled? && CanWrite(fs, bin + ".tmp") && CanWrite(fs, bin)
  {
    BuildSucceedsIffPermitted(fs, LayoutOf(env, key), GoMod(key, tc), StripShebang(raw), tc);
  }

  /** After a successful build the workspace holds the go.mod and go.sum
      tidying left and the source without its `#!` line, and no build
      output is left. */
  lemma PrepareWritesWorkspace(env: Environment, fs: Fs, key: CacheKey, raw: Bytes, tc: Toolchain)
    ensures var o, work := PrepareScript(env, fs, key, raw, tc), CacheWorkDir(env, key);
      o.result.Ok? ==>
        && tc.tidy.Tidied?
        && Get(o.fs, work + "/go.mod") == Some(File(tc.tidy.mod))
        && Get(o.fs, work + "/main.go") == Some(File(StripShebang(raw)))
        && (tc.tidy.sum.Some? ==> Get(o.fs, work + "/go.sum") == Some(File(tc.tidy.sum.value)))
        && CacheBinPath(env, key) + ".tmp" !in o.fs.nodes
  {
    BuildKeepsWorkspace(fs, LayoutOf(env, key), GoMod(key, tc), StripShebang(raw), tc);
  }

  /** Every build first writes the generated go.mod and runs `go mod tidy`,
      even when the workspace already holds them; `go build` runs right
      after tidying's own writes. */
  lemma PrepareTidiesFirst(env: Environment, fs: Fs, key: CacheKey, raw: Bytes, tc: Toolchain)
    ensures var log, work := PrepareScript(env, fs, key, raw, tc).log, CacheWorkDir(env, key);
      forall i :: 0 <= i < |log| && log[i].Exec? && log[i].cmd.GoBuild? ==>
        && tc.tidy.Tidied?
        && i == (if tc.tidy.sum.Some? then 8 else 7)
        && log[2] == Write(work + "/go.mod", Utf8(GoModText(key, GoVersionLine(tc.goEnvOutput))))
        && log[5] == Exec(GoModTidy(work))
        && log[6] == Write(work + "/go.mod", tc.tidy.mod)
  {
    var l, mod, src := LayoutOf(env, key), GoMod(key, tc), StripShebang(raw);
    BuildTidiesFirst(fs, l, mod, src, tc);
    BuildFollowsSetUp(Build(fs, l, mod, src, tc).log, l, mod, src, tc.tidy);
  }

  /** A failure after `go build` has run leaves no build output, unless
      its removal is not permitted. */
  lemma PrepareCleansUp(env: Environment, fs: Fs, key: CacheKey, raw: Bytes, tc: Toolchain)
    ensures var o, l := PrepareScript(env, fs, key, raw, tc), LayoutOf(env, key);
      o.result.Err? && Exec(GoBuild(l.tmp, l.srcPath, l.work)) in o.log && l.tmp !in fs.denied ==>
        l.tmp !in o.fs.nodes
  {
    BuildCleansUp(fs, LayoutOf(env, key), GoMod(key, tc), StripShebang(raw), tc);
  }

  /** A failed command is reported with its trimmed diagnostic. */
  lemma PrepareCommandErrors(env: Environment, fs: Fs, key: CacheKey, raw: Bytes, tc: Toolchain)
    ensures var o, l := PrepareScript(env, fs, key, raw, tc), LayoutOf(env, key);
      o.result.Err? && o.result.error.CommandFailed? ==>
        || (tc.tidy.TidyFails? && o.result.error == CommandFailed(GoModTidy(l.work), TrimSpace(tc.tidy.stderr)))
        || (tc.build.BuildFails?
            && o.result.error == CommandFailed(GoBuild(l.tmp, l.srcPath, l.work), TrimSpace(tc.build.stderr)))
  {
    BuildCommandErrors(fs, LayoutOf(env, key), GoMod(key, tc), StripShebang(raw), tc);
  }

  /** Nothing outside the key's locations changes. */
  lemma PrepareLeavesRestAlone(env: Environment, fs: Fs, key: CacheKey, raw: Bytes, tc: Toolchain, q: Path)
    requires q !in Footprint(env, key)
    ensures Get(PrepareScript(env, fs, key, raw, tc).fs, q) == Get(fs, q)
  {
    var o := PrepareScript(env, fs, key, raw, tc);
    ConfinedUntouched(fs, o.log, Footprint(env, key), q);
  }

  /** Publishing is a single rename: after every prefix of the effects the
      binary is either what it was before or what it is at the end, never
      a partial build. */
  lemma PrepareIsAtomic(env: Environment, fs: Fs, key: CacheKey, raw: Bytes, tc: Toolchain, k: nat)
    ensures var o, bin := PrepareScript(env, fs, key, raw, tc), CacheBinPath(env, key);
      var seen := Get(Replay(fs, o.log[..if k <= |o.log| then k else |o.log|]), bin);
      seen == Get(fs, bin) || seen == Get(o.fs, bin)
  {
    var o, bin := PrepareScript(env, fs, key, raw, tc), CacheBinPath(env, key);
    TouchedLastIsAtomic(fs, o.log, bin, Move(TmpPath(bin), bin), if k <= |o.log| then k else |o.log|);
  }
}

=== FILE: resolve.dfy ===
/** `resolve` (main.go): content is hashed to its key; a cached binary is
    used as it is, a lookup error is returned, and a miss builds the
    content. */
module Resolve {
  import opened Wrappers
  import opened Encoding
  import opened Os
  import opened Cache
  import opened Script
  import opened Prepare
  import opened Shapes

  /** Resolves the content `raw` to an executable. `sha` stands for
      SHA-256 and `tc` for what the toolchain does if a build is needed. */
  function Resolve(sha: Bytes -> Digest, env: Environment, fs: Fs, raw: Bytes, tc: Toolchain): (o: Outcome)
    ensures Replay(fs, o.log) == o.fs
    ensures var key := HashContent(sha, raw);
      o.result.Ok? ==>
        && o.result.value == Resolved(key, CacheBinPath(env, key), CacheWorkDir(env, key))
        && CacheBinPath(env, key) in o.fs.nodes && CacheBinPath(env, key) !in o.fs.denied
    ensures var bin := CacheBinPath(env, HashContent(sha, raw));
      bin in fs.nodes && bin !in fs.denied ==> o.result.Ok? && o.fs == fs && o.log == []
    ensures var bin := CacheBinPath(env, HashContent(sha, raw));
      bin in fs.denied ==>
        && o.result == Err(LookupCache(env, fs, HashContent(sha, raw)).error)
        && Stat(fs, bin) == Some(o.result.error)
        && o.fs == fs && o.log == []
  {
    var key := HashContent(sha, raw);
    match LookupCache(env, fs, key)
    case Failure(err) => Outcome(Err(err), fs, [])
    case Hit(r) => Outcome(Ok(r), fs, [])
    case Miss => PrepareScript(env, fs, key, raw, tc)
  }

  /** On a miss, resolving is building the content under its key. */
  lemma ResolveMissBuilds(sha: Bytes -> Digest, env: Environment, fs: Fs, raw: Bytes, tc: Toolchain)
    requires CacheBinPath(env, HashContent(sha, raw)) !in fs.nodes
    requires CacheBinPath(env, HashContent(sha, raw)) !in fs.denied
    ensures Resolve(sha, env, fs, raw, tc) == PrepareScript(env, fs, HashContent(sha, raw), raw, tc)
  {
    assert LookupCache(env, fs, HashContent(sha, raw)).Miss?;
  }

  /** Once content has been resolved, resolving it again is a hit: the same
      result, with no build and no change, whatever the toolchain would do. */
  lemma ResolveAgainHits(sha: Bytes -> Digest, env: Environment, fs: Fs, raw: Bytes, tc1: Toolchain, tc2: Toolchain)
    ensures var o1 := Resolve(sha, env, fs, raw, tc1);
      o1.result.Ok? ==> Resolve(sha, env, o1.fs, raw, tc2) == Outcome(o1.result, o1.fs, [])
  {
  }

  /** Resolution depends on the content only through its key: contents
      whose digests share the first twelve bytes, when both resolve, resolve
      to the same result, whatever the toolchain does for each. A hit or a
      failed lookup is the same outcome for both. */
  lemma ResolveByKey(sha: Bytes -> Digest, env: Environment, fs: Fs, a: Bytes, b: Bytes, tca: Toolchain, tcb: Toolchain)
    requires sha(a)[..12] == sha(b)[..12]
    ensures var oa, ob := Resolve(sha, env, fs, a, tca), Resolve(sha, env, fs, b, tcb);
      oa.result.Ok? && ob.result.Ok? ==> oa.result == ob.result
    ensures var bin := CacheBinPath(env, HashContent(sha, a));
      bin in fs.nodes || bin in fs.denied ==> Resolve(sha, env, fs, a, tca) == Resolve(sha, env, fs, b, tcb)
  {
    KeysAgreeIffDigestPrefixesAgree(sha, a, b);
  }

  /** With the same outcomes of the go commands, contents sharing a key
      resolve to the same result and leave filesystems that differ at most
      in file contents: the program's own steps never read the source. */
  lemma ResolveByKeyShape(sha: Bytes -> Digest, env: Environment, fs: Fs, a: Bytes, b: Bytes, tc: Toolchain)
    requires sha(a)[..12] == sha(b)[..12]
    ensures var oa, ob := Resolve(sha, env, fs, a, tc), Resolve(sha, env, fs, b, tc);
      oa.result == ob.result && SameShape(oa.fs, ob.fs)
  {
    KeysAgreeIffDigestPrefixesAgree(sha, a, b);
    var key := HashContent(sha, a);
    if LookupCache(env, fs, key).Miss? {
      BuildIgnoresSource(fs, LayoutOf(env, key), GoMod(key, tc), StripShebang(a), StripShebang(b), tc);
    } else {
      assert SameShape(fs, fs);
    }
  }
}

=== FILE: script.dfy ===
/** The content transforms of script.go: the cache key of a script, the
    removal of its `#!` line, and the go.mod text stamped with the
    toolchain's version. */
module Script {
  import opened Seqs
  import opened Text
  import opened Encoding
  import Cache

  // ---------------------------------------------------------------------
  // Cache key
  // ---------------------------------------------------------------------

  /** A SHA-256 digest. */
  type Digest = d: Bytes | |d| == 32 witness seq(32, _ => 0 as byte)

  /** Number of hexadecimal digits of the digest kept in a cache key. */
  const KeyLength: nat := 24

  /** The cache key of some content: the first 24 digits of the hexadecimal
      SHA-256 digest. `sha` stands for SHA-256, which is not modelled. */
  function HashContent(sha: Bytes -> Digest, content: Bytes): (key: Cache.CacheKey)
    ensures |key| == KeyLength && |HexEncode(sha(content))| == 64
    ensures forall i :: 0 <= i < |key| ==> IsLowerHex(key[i])
    ensures key <= HexEncode(sha(content))
    ensures key == HexEncode(sha(content)[..KeyLength / 2])
  {
    HexEncodePrefix(sha(content), KeyLength / 2);
    HexEncode(sha(content))[..KeyLength]
  }

  /** Truncation makes two contents share a key exactly when their digests
      agree on the first twelve bytes. */
  lemma KeysAgreeIffDigestPrefixesAgree(sha: Bytes -> Digest, a: Bytes, b: Bytes)
    ensures HashContent(sha, a) == HashContent(sha, b) <==> sha(a)[..12] == sha(b)[..12]
  {
    HexEncodeInjective(sha(a)[..12], sha(b)[..12]);
  }

  /** A key is safe as a path component and as a go.mod module suffix. */
  lemma KeyHasNoSeparators(sha: Bytes -> Digest, content: Bytes)
    ensures '/' !in HashContent(sha, content)
    ensures '\n' !in HashContent(sha, content)
  {
    var key := HashContent(sha, content);
    forall i | 0 <= i < |key| ensures key[i] != '/' && key[i] != '\n' {
      assert IsLowerHex(key[i]);
    }
  }

  // ---------------------------------------------------------------------
  // Shebang
  // ---------------------------------------------------------------------

  const NumberSign: byte := 0x23   // '#'
  const Bang: byte := 0x21         // '!'
  const Newline: byte := 0x0A      // '\n'

  predicate HasShebang(b: Bytes) {
    |b| >= 2 && b[0] == NumberSign && b[1] == Bang
  }

  /** Drops a leading `#!` line but keeps its newline, so that the line
      numbers the compiler reports are those of the original file. Without
      a newline the whole input is the `#!` line and nothing is left. */
  function StripShebang(b: Bytes): (r: Bytes)
    ensures |r| <= |b| && r == b[|b| - |r|..]
    ensures !HasShebang(b) ==> r == b
    ensures HasShebang(b) ==> Newline !in b[..|b| - |r|] && (r == [] || r[0] == Newline)
    ensures HasShebang(b) && Newline !in b ==> r == []
  {
    if HasShebang(b) then
      var i := IndexOf(b, Newline);
      if i < |b| then b[i..] else []
    else b
  }

  /** Stripping keeps every newline, so line numbers are preserved. */
  lemma StripShebangKeepsLines(b: Bytes)
    ensures Count(StripShebang(b), Newline) == Count(b, Newline)
  {
    var r := StripShebang(b);
    var k := |b| - |r|;
    assert b == b[..k] + r;
    CountAppend(b[..k], r, Newline);
    if HasShebang(b) {
      assert Count(b[..k], Newline) == 0;
    } else {
      assert b[..k] == [];
    }
  }

  /** Stripping twice is stripping once. */
  lemma StripShebangIdempotent(b: Bytes)
    ensures StripShebang(StripShebang(b)) == StripShebang(b)
  {
    var r := StripShebang(b);
    if HasShebang(b) {
      assert !HasShebang(r);
    }
  }

  // ---------------------------------------------------------------------
  // Toolchain version and go.mod
  // ---------------------------------------------------------------------

  /** The version `go env GOVERSION` reported: its output without the
      surrounding white space and without the `go` prefix. */
  function ReportedVersion(goEnvOutput: string): string {
    TrimPrefix(TrimSpace(goEnvOutput), "go")
  }

  /** The `go` directive of the generated go.mod: the first two
      dot-separated parts of the reported version, or all of it when it
      has no dot. */
  function GoVersionLine(goEnvOutput: string): (ver: string)
    ensures var v := ReportedVersion(goEnvOutput);
      && ver <= v
      && ('.' !in v ==> ver == v)
      && ('.' in v ==> Count(ver, '.') == 1 && (|ver| == |v| || v[|ver|] == '.'))
  {
    var v := ReportedVersion(goEnvOutput);
    var parts := Split(v, '.');
    SplitCount(v, '.');
    if |parts| >= 2 then
      MajorMinorShape(v);
      parts[0] + "." + parts[1]
    else v
  }

  /** The first two parts of a dotted version, joined again, are the
      prefix of the version that ends before its second dot. */
  lemma MajorMinorShape(v: string)
    requires '.' in v
    ensures |Split(v, '.')| >= 2
    ensures var ver := Split(v, '.')[0] + "." + Split(v, '.')[1];
      ver <= v && Count(ver, '.') == 1 && (|ver| == |v| || v[|ver|] == '.')
  {
    FirstTwoPieces(v, '.');
    CountOneSeparator(Split(v, '.')[0], '.', Split(v, '.')[1]);
  }

  /** A release `go<major>.<minor>.<patch>` printed with trailing white
      space stamps go.mod with `<major>.<minor>`. */
  lemma GoVersionLineOfRelease(major: string, minor: string, patch: string, pad: string)
    requires '.' !in major && '.' !in minor
    requires |patch| > 0 && !IsSpace(patch[|patch| - 1]) && AllSpace(pad)
    ensures GoVersionLine("go" + major + "." + minor + "." + patch + pad) == major + "." + minor
  {
    var v := major + "." + minor + "." + patch;
    assert "go" + major + "." + minor + "." + patch + pad == "go" + v + pad;
    ReportedRelease(v, pad);
    ReleaseParts(major, minor, patch);
  }

  /** The output of `go env GOVERSION` reports the version it prints. */
  lemma ReportedRelease(v: string, pad: string)
    requires |v| > 0 && !IsSpace(v[|v| - 1]) && AllSpace(pad)
    ensures ReportedVersion("go" + v + pad) == v
  {
    var line := "go" + v;
    var none: string := [];
    assert line[|line| - 1] == v[|v| - 1];
    assert AllSpace(none) && none + line + pad == "go" + v + pad;
    TrimSpaceOfFramed(none, line, pad);
  }

  lemma ReleaseParts(major: string, minor: string, patch: string)
    requires '.' !in major && '.' !in minor
    ensures Split(major + "." + minor + "." + patch, '.') == [major] + ([minor] + Split(patch, '.'))
  {
    assert major + "." + minor + "." + patch == major + ['.'] + (minor + ['.'] + patch);
    SplitAfterPrefix(minor, '.', patch);
    SplitAfterPrefix(major, '.', minor + ['.'] + patch);
  }

  /** The text of the generated go.mod: the module named after the key and
      the `go` directive. */
  function GoModText(key: Cache.CacheKey, ver: string): (text: string)
    ensures '\n' !in key && '\n' !in ver ==>
      Split(text, '\n') == ["module goscript/" + key, "", "go " + ver, ""]
  {
    var text := "module goscript/" + key + "\n\n" + "go " + ver + "\n";
    if '\n' !in key && '\n' !in ver then
      assert text == ("module goscript/" + key) + ['\n'] + (['\n'] + (("go " + ver) + ['\n']));
      SplitThreeLines("module goscript/" + key, '\n', "go " + ver);
      text
    else text
  }

}

=== FILE: seqs.dfy ===
/** Generic sequence operations standing for the helpers of Go's `strings`
    and `bytes` packages that the program relies on: searching for an
    element or a pattern, counting, splitting on a one-element separator,
    joining, and replacing the first occurrence of a pattern. */
module Seqs {
  import opened Wrappers

  /** Position of the first `x` in `s`, or `|s|` when `s` holds none. */
  function IndexOf<T(==)>(s: seq<T>, x: T): (i: nat)
    ensures i <= |s|
    ensures i < |s| ==> s[i] == x
    ensures forall j :: 0 <= j < i ==> s[j] != x
    ensures i == |s| <==> x !in s
  {
    if |s| == 0 then 0
    else if s[0] == x then 0
    else 1 + IndexOf(s[1..], x)
  }

  /** Number of occurrences of `x` in `s`. */
  function Count<T(==)>(s: seq<T>, x: T): (n: nat)
    ensures n <= |s|
    ensures n == 0 <==> x !in s
  {
    if |s| == 0 then 0
    else (if s[0] == x then 1 else 0) + Count(s[1..], x)
  }

  lemma {:induction false} CountAppend<T>(a: seq<T>, b: seq<T>, x: T)
    ensures Count(a + b, x) == Count(a, x) + Count(b, x)
  {
    if |a| == 0 {
      assert a + b == b;
    } else {
      assert (a + b)[1..] == a[1..] + b;
      CountAppend(a[1..], b, x);
    }
  }

  /** The first separator splits `s` into a separator-free head and a rest. */
  lemma IndexOfSplits<T>(s: seq<T>, sep: T)
    requires sep in s
    ensures s == s[..IndexOf(s, sep)] + [sep] + s[IndexOf(s, sep) + 1..]
    ensures Count(s, sep) == Count(s[IndexOf(s, sep) + 1..], sep) + 1
  {
    var i := IndexOf(s, sep);
    assert s == s[..i] + [sep] + s[i + 1..];
    CountAppend(s[..i], [sep] + s[i + 1..], sep);
    assert ([sep] + s[i + 1..])[1..] == s[i + 1..];
    assert sep !in s[..i];
  }

  /** A separator placed right after a separator-free prefix is the first one. */
  lemma IndexOfAfterPrefix<T>(a: seq<T>, sep: T, b: seq<T>)
    requires sep !in a
    ensures IndexOf(a + [sep] + b, sep) == |a|
  {
    var s := a + [sep] + b;
    assert s[|a|] == sep;
    assert forall j :: 0 <= j < |a| ==> s[j] == a[j];
  }

  /** Go's `strings.Split(s, sep)` for a one-element separator: the pieces
      between consecutive separators, always at least one. */
  function Split<T(==)>(s: seq<T>, sep: T): (parts: seq<seq<T>>)
    ensures |parts| >= 1
    decreases |s|
  {
    var i := IndexOf(s, sep);
    if i == |s| then [s] else [s[..i]] + Split(s[i + 1..], sep)
  }

  /** There is one more piece than there are separators. */
  lemma {:induction false} SplitCount<T>(s: seq<T>, sep: T)
    ensures |Split(s, sep)| == Count(s, sep) + 1
    decreases |s|
  {
    if sep in s {
      IndexOfSplits(s, sep);
      SplitCount(s[IndexOf(s, sep) + 1..], sep);
    }
  }

  /** No piece holds a separator. */
  lemma {:induction false} SplitPiecesFree<T>(s: seq<T>, sep: T)
    ensures forall k :: 0 <= k < |Split(s, sep)| ==> sep !in Split(s, sep)[k]
    decreases |s|
  {
    if sep in s {
      var i := IndexOf(s, sep);
      SplitPiecesFree(s[i + 1..], sep);
      var rest := Split(s[i + 1..], sep);
      assert Split(s, sep) == [s[..i]] + rest;
      forall k | 0 <= k < |Split(s, sep)| ensures sep !in Split(s, sep)[k] {
        if k > 0 { assert Split(s, sep)[k] == rest[k - 1]; }
      }
    }
  }

  /** The first piece is everything before the first separator. */
  lemma SplitHead<T>(s: seq<T>, sep: T)
    ensures Split(s, sep)[0] == s[..IndexOf(s, sep)]
  {
  }

  /** Go's `strings.Join(parts, sep)`. */
  function Join<T>(parts: seq<seq<T>>, sep: T): (s: seq<T>)
    ensures |parts| > 0 ==> parts[0] <= s
  {
    if |parts| == 0 then []
    else if |parts| == 1 then parts[0]
    else parts[0] + [sep] + Join(parts[1..], sep)
  }

  /** Joining the pieces of a split gives back the original sequence. */
  lemma {:induction false} JoinSplit<T>(s: seq<T>, sep: T)
    ensures Join(Split(s, sep), sep) == s
    decreases |s|
  {
    var i := IndexOf(s, sep);
    if i < |s| {
      IndexOfSplits(s, sep);
      var rest := Split(s[i + 1..], sep);
      assert Split(s, sep) == [s[..i]] + rest;
      assert ([s[..i]] + rest)[1..] == rest;
      JoinSplit(s[i + 1..], sep);
    }
  }

  /** Splitting after a separator-free head yields that head, then the
      pieces of the rest. */
  lemma SplitAfterPrefix<T>(a: seq<T>, sep: T, b: seq<T>)
    requires sep !in a
    ensures Split(a + [sep] + b, sep) == [a] + Split(b, sep)
  {
    var s := a + [sep] + b;
    IndexOfAfterPrefix(a, sep, b);
    assert s[..|a|] == a;
    assert s[|a| + 1..] == b;
  }

  /** A piece without the separator splits into itself. */
  lemma SplitFree<T>(a: seq<T>, sep: T)
    requires sep !in a
    ensures Split(a, sep) == [a]
  {
  }

  /** Three separator-terminated lines, the middle one empty, split into
      those lines and an empty remainder. */
  lemma SplitThreeLines<T>(a: seq<T>, sep: T, c: seq<T>)
    requires sep !in a && sep !in c
    ensures Split(a + [sep] + ([sep] + (c + [sep])), sep) == [a, [], c, []]
  {
    var none: seq<T> := [];
    var lines := [a, none, c, none];
    assert Join(lines, sep) == a + [sep] + ([sep] + (c + [sep])) by {
      assert lines[1..] == [none, c, none] && lines[1..][1..] == [c, none];
      assert lines[1..][1..][1..] == [none];
      assert Join([c, none], sep) == c + [sep];
      assert Join([none, c, none], sep) == [sep] + (c + [sep]);
    }
    SplitJoin(lines, sep);
  }

  /** Two separator-free pieces around one separator hold exactly one. */
  lemma CountOneSeparator<T>(a: seq<T>, sep: T, b: seq<T>)
    requires sep !in a && sep !in b
    ensures Count(a + [sep] + b, sep) == 1
  {
    assert a + [sep] + b == a + ([sep] + b);
    CountAppend(a, [sep] + b, sep);
    CountAppend([sep], b, sep);
  }

  /** The first two pieces of a split, joined by the separator, are the
      prefix of `s` that runs up to its second separator or its end. */
  lemma FirstTwoPieces<T>(s: seq<T>, sep: T)
    requires sep in s
    ensures |Split(s, sep)| >= 2
    ensures var p := Split(s, sep)[0] + [sep] + Split(s, sep)[1];
      && p <= s && sep !in Split(s, sep)[0] && sep !in Split(s, sep)[1]
      && (|p| == |s| || s[|p|] == sep)
  {
    var i := IndexOf(s, sep);
    var tail := s[i + 1..];
    var j := IndexOf(tail, sep);
    assert Split(s, sep) == [s[..i]] + Split(tail, sep);
    SplitHead(tail, sep);
    assert sep !in s[..i] by {
      assert forall k :: 0 <= k < i ==> s[..i][k] == s[k];
    }
    assert sep !in tail[..j] by {
      assert forall k :: 0 <= k < j ==> tail[..j][k] == tail[k];
    }
    PrefixThroughSecond(s, sep, i, j);
  }

  /** A prefix cut at a separator and extended by part of the rest. */
  lemma PrefixThroughSecond<T>(s: seq<T>, sep: T, i: nat, j: nat)
    requires i < |s| && s[i] == sep && i + 1 + j <= |s|
    ensures s[..i] + [sep] + s[i + 1..][..j] == s[..i + 1 + j]
  {
  }

  /** Splitting a join of separator-free pieces gives back the pieces. */
  lemma {:induction false} SplitJoin<T>(parts: seq<seq<T>>, sep: T)
    requires |parts| >= 1
    requires forall k :: 0 <= k < |parts| ==> sep !in parts[k]
    ensures Split(Join(parts, sep), sep) == parts
  {
    if |parts| > 1 {
      var rest := Join(parts[1..], sep);
      assert Join(parts, sep) == parts[0] + [sep] + rest;
      SplitAfterPrefix(parts[0], sep, rest);
      SplitJoin(parts[1..], sep);
      assert parts == [parts[0]] + parts[1..];
    }
  }

  /** Joining two non-empty lists of pieces puts a separator between the
      two joins. */
  lemma {:induction false} JoinAppend<T>(x: seq<seq<T>>, y: seq<seq<T>>, sep: T)
    requires |x| >= 1 && |y| >= 1
    ensures Join(x + y, sep) == Join(x, sep) + [sep] + Join(y, sep)
    decreases |x|
  {
    assert (x + y)[0] == x[0];
    if |x| == 1 {
      assert (x + y)[1..] == y;
    } else {
      assert (x + y)[1..] == x[1..] + y;
      JoinAppend(x[1..], y, sep);
    }
  }

  /** A separator splits the pieces of the two sides apart. */
  lemma SplitAround<T>(a: seq<T>, sep: T, b: seq<T>)
    ensures Split(a + [sep] + b, sep) == Split(a, sep) + Split(b, sep)
  {
    var x, y := Split(a, sep), Split(b, sep);
    JoinSplit(a, sep);
    JoinSplit(b, sep);
    JoinAppend(x, y, sep);
    SplitPiecesFree(a, sep);
    SplitPiecesFree(b, sep);
    assert forall k :: 0 <= k < |x + y| ==> sep !in (x + y)[k] by {
      forall k | 0 <= k < |x + y| ensures sep !in (x + y)[k] {
        if k >= |x| {
          assert (x + y)[k] == y[k - |x|];
        }
      }
    }
    SplitJoin(x + y, sep);
  }

  /** `pat` appears in `s` starting at position `i`. */
  predicate OccursAt<T(==)>(s: seq<T>, pat: seq<T>, i: nat) {
    i + |pat| <= |s| && s[i..i + |pat|] == pat
  }

  /** `i` is the leftmost position at which `pat` appears in `s`. */
  predicate IsFirstOccurrence<T(==)>(s: seq<T>, pat: seq<T>, i: nat) {
    OccursAt(s, pat, i) && forall j :: 0 <= j < i ==> !OccursAt(s, pat, j)
  }

  /** The leftmost occurrence of `pat` at or after `from`. */
  function FindFrom<T(==)>(s: seq<T>, pat: seq<T>, from: nat): (r: Option<nat>)
    ensures r.Some? ==> from <= r.value && OccursAt(s, pat, r.value)
    ensures forall j :: from <= j && (r.None? || j < r.value) ==> !OccursAt(s, pat, j)
    decreases |s| - from
  {
    if from + |pat| > |s| then None
    else if s[from..from + |pat|] == pat then Some(from)
    else FindFrom(s, pat, from + 1)
  }

  /** The leftmost occurrence of `pat` in `s`, if any. */
  function Find<T(==)>(s: seq<T>, pat: seq<T>): (r: Option<nat>)
    ensures r.Some? ==> IsFirstOccurrence(s, pat, r.value)
    ensures r.None? ==> forall j: nat :: !OccursAt(s, pat, j)
  {
    FindFrom(s, pat, 0)
  }

  /** Go's `bytes.Replace(s, pat, repl, 1)`: only the leftmost occurrence
      of `pat` is replaced; without one, `s` comes back unchanged. */
  function ReplaceFirst<T(==)>(s: seq<T>, pat: seq<T>, repl: seq<T>): (r: seq<T>)
    ensures (forall j: nat :: !OccursAt(s, pat, j)) ==> r == s
    ensures forall i: nat :: IsFirstOccurrence(s, pat, i) ==>
              r == s[..i] + repl + s[i + |pat|..]
  {
    match Find(s, pat)
    case None => s
    case Some(i) => s[..i] + repl + s[i + |pat|..]
  }
}

=== FILE: shapes.dfy ===
/** The program's own steps in `PrepareScript` (script.go) never look at
    file contents: given the same outcomes of the go commands, run on
    filesystems of the same shape and with any two sources, every stage
    fails with the same error or succeeds alike, and the filesystems it
    leaves have the same shape again. Which outcomes the go commands have
    is a `Toolchain` value fixed in advance, not computed from the source. */
module Shapes {
  import opened Wrappers
  import opened Encoding
  import opened Os
  import opened Prepare

  /** Two runs of a stage that agree in everything but file contents. */
  predicate SameStage(s1: Stage, s2: Stage) {
    s1.error == s2.error && SameShape(s1.fs, s2.fs)
  }

  lemma RemoveQuietlyShape(a: Fs, b: Fs, p: Path)
    requires SameShape(a, b)
    ensures SameStage(RemoveQuietly(a, p), RemoveQuietly(b, p))
  {
    ShapeDecidesOutcome(a, b, p, p, [], []);
  }

  lemma WriteWorkspaceShape(a: Fs, b: Fs, work: Path, modPath: Path, srcPath: Path, mod: Bytes, src1: Bytes, src2: Bytes)
    requires work != modPath && work != srcPath && modPath != srcPath
    requires SameShape(a, b)
    ensures SameStage(WriteWorkspace(a, work, modPath, srcPath, mod, src1),
                      WriteWorkspace(b, work, modPath, srcPath, mod, src2))
  {
    ShapeDecidesOutcome(a, b, work, work, [], []);
    if MkdirAll(a, work).Ok? {
      var a1, b1 := MkdirAll(a, work).value, MkdirAll(b, work).value;
      ShapeDecidesOutcome(a1, b1, modPath, modPath, mod, mod);
      if WriteFile(a1, modPath, mod).Ok? {
        var a2, b2 := WriteFile(a1, modPath, mod).value, WriteFile(b1, modPath, mod).value;
        ShapeDecidesOutcome(a2, b2, srcPath, srcPath, src1, src2);
      }
    }
  }

  lemma TidyWritesShape(a: Fs, b: Fs, work: Path, modPath: Path, sumPath: Path, mod: Bytes, sum: Option<Bytes>)
    requires modPath != sumPath
    requires SameShape(a, b)
    ensures SameStage(TidyWrites(a, work, modPath, sumPath, mod, sum), TidyWrites(b, work, modPath, sumPath, mod, sum))
  {
    ShapeDecidesOutcome(a, b, modPath, modPath, mod, mod);
    if WriteFile(a, modPath, mod).Ok? && sum.Some? {
      var a1, b1 := WriteFile(a, modPath, mod).value, WriteFile(b, modPath, mod).value;
      ShapeDecidesOutcome(a1, b1, sumPath, sumPath, sum.value, sum.value);
    }
  }

  lemma MakeDirAndTidyShape(a: Fs, b: Fs, work: Path, modPath: Path, sumPath: Path, dir: Path, tidy: TidyRun)
    requires dir != modPath && dir != sumPath && modPath != sumPath
    requires SameShape(a, b)
    ensures SameStage(MakeDirAndTidy(a, work, modPath, sumPath, dir, tidy),
                      MakeDirAndTidy(b, work, modPath, sumPath, dir, tidy))
  {
    ShapeDecidesOutcome(a, b, dir, dir, [], []);
    if MkdirAll(a, dir).Ok? && tidy.Tidied? {
      TidyWritesShape(MkdirAll(a, dir).value, MkdirAll(b, dir).value, work, modPath, sumPath, tidy.mod, tidy.sum);
    }
  }

  lemma SetUpShape(a: Fs, b: Fs, l: Layout, mod: Bytes, src1: Bytes, src2: Bytes, tidy: TidyRun)
    requires Distinct(l)
    requires SameShape(a, b)
    ensures SameStage(SetUp(a, l, mod, src1, tidy), SetUp(b, l, mod, src2, tidy))
  {
    WriteWorkspaceShape(a, b, l.work, l.modPath, l.srcPath, mod, src1, src2);
    var ws1 := WriteWorkspace(a, l.work, l.modPath, l.srcPath, mod, src1);
    var ws2 := WriteWorkspace(b, l.work, l.modPath, l.srcPath, mod, src2);
    if ws1.error.None? {
      MakeDirAndTidyShape(ws1.fs, ws2.fs, l.work, l.modPath, l.sumPath, l.dir, tidy);
    }
  }

  lemma AbandonBuildShape(a: Fs, b: Fs, tmp: Path, partial: Option<Bytes>)
    requires SameShape(a, b)
    ensures SameStage(AbandonBuild(a, tmp, partial), AbandonBuild(b, tmp, partial))
  {
    if partial.Some? {
      ShapeDecidesOutcome(a, b, tmp, tmp, partial.value, partial.value);
      if WriteFile(a, tmp, partial.value).Ok? {
        RemoveQuietlyShape(WriteFile(a, tmp, partial.value).value, WriteFile(b, tmp, partial.value).value, tmp);
      } else {
        RemoveQuietlyShape(a, b, tmp);
      }
    } else {
      RemoveQuietlyShape(a, b, tmp);
    }
  }

  lemma PublishShape(a: Fs, b: Fs, tmp: Path, bin: Path)
    requires tmp != bin && tmp in a.nodes
    requires SameShape(a, b)
    ensures tmp in b.nodes
    ensures SameStage(Publish(a, tmp, bin), Publish(b, tmp, bin))
  {
    ShapeDecidesOutcome(a, b, tmp, bin, [], []);
    RemoveQuietlyShape(a, b, tmp);
  }

  lemma InstallBinaryShape(a: Fs, b: Fs, tmp: Path, bin: Path, exe: Bytes)
    requires tmp != bin
    requires SameShape(a, b)
    ensures SameStage(InstallBinary(a, tmp, bin, exe), InstallBinary(b, tmp, bin, exe))
  {
    ShapeDecidesOutcome(a, b, tmp, tmp, exe, exe);
    if WriteFile(a, tmp, exe).Ok? {
      PublishShape(WriteFile(a, tmp, exe).value, WriteFile(b, tmp, exe).value, tmp, bin);
    } else {
      RemoveQuietlyShape(a, b, tmp);
    }
  }

  lemma BuildAndPublishShape(a: Fs, b: Fs, work: Path, src: Path, tmp: Path, bin: Path, build: BuildRun)
    requires tmp != bin
    requires SameShape(a, b)
    ensures SameStage(BuildAndPublish(a, work, src, tmp, bin, build), BuildAndPublish(b, work, src, tmp, bin, build))
  {
    match build
    case BuildFails(_, partial) => AbandonBuildShape(a, b, tmp, partial);
    case Compiled(exe) => InstallBinaryShape(a, b, tmp, bin, exe);
  }

  lemma BuildShape(a: Fs, b: Fs, l: Layout, mod: Bytes, src1: Bytes, src2: Bytes, tc: Toolchain)
    requires Distinct(l)
    requires SameShape(a, b)
    ensures SameStage(Build(a, l, mod, src1, tc), Build(b, l, mod, src2, tc))
  {
    SetUpShape(a, b, l, mod, src1, src2, tc.tidy);
    var s1, s2 := SetUp(a, l, mod, src1, tc.tidy), SetUp(b, l, mod, src2, tc.tidy);
    if s1.error.None? {
      BuildAndPublishShape(s1.fs, s2.fs, l.work, l.srcPath, l.tmp, l.bin, tc.build);
    }
  }

  /** Given the same outcomes of the go commands, whether a build succeeds,
      and the error it fails with, do not depend on the source written to
      main.go; two builds of different sources leave the same paths with the
      same kinds of node. */
  lemma BuildIgnoresSource(fs: Fs, l: Layout, mod: Bytes, src1: Bytes, src2: Bytes, tc: Toolchain)
    requires Distinct(l)
    ensures Build(fs, l, mod, src1, tc).error == Build(fs, l, mod, src2, tc).error
    ensures SameShape(Build(fs, l, mod, src1, tc).fs, Build(fs, l, mod, src2, tc).fs)
  {
    BuildShape(fs, fs, l, mod, src1, src2, tc);
  }
}

=== FILE: text.dfy ===
/** The rune-level text helpers of Go's `strings` package the program uses:
    `unicode.IsSpace`, `strings.TrimSpace` and `strings.TrimPrefix`. A Go
    string is modelled by the sequence of runes it decodes to. */
module Text {

  /** Go's `unicode.IsSpace`: the ASCII white space characters, NEL, NBSP,
      and the other characters Unicode gives the White_Space property. */
  predicate IsSpace(c: char) {
    var n := c as int;
    || (0x09 <= n <= 0x0D) || n == 0x20       // '\t', '\n', '\v', '\f', '\r', ' '
    || n == 0x85 || n == 0xA0                  // NEL, NBSP
    || n == 0x1680
    || (0x2000 <= n <= 0x200A)
    || n == 0x2028 || n == 0x2029 || n == 0x202F || n == 0x205F
    || n == 0x3000
  }

  predicate AllSpace(s: string) {
    forall i :: 0 <= i < |s| ==> IsSpace(s[i])
  }

  /** Text is white space exactly when both of its parts are. */
  lemma AllSpaceAppend(a: string, b: string)
    ensures AllSpace(a + b) <==> AllSpace(a) && AllSpace(b)
  {
    var s := a + b;
    assert forall i :: 0 <= i < |a| ==> s[i] == a[i];
    assert forall i :: 0 <= i < |b| ==> s[|a| + i] == b[i];
  }

  /** Length of the white space run that starts `s`. */
  function LeadingSpaces(s: string): (n: nat)
    ensures n <= |s|
    ensures forall i :: 0 <= i < n ==> IsSpace(s[i])
    ensures n < |s| ==> !IsSpace(s[n])
  {
    if |s| == 0 || !IsSpace(s[0]) then 0 else 1 + LeadingSpaces(s[1..])
  }

  /** Length of the white space run that ends `s`. */
  function TrailingSpaces(s: string): (n: nat)
    ensures n <= |s|
    ensures forall i :: |s| - n <= i < |s| ==> IsSpace(s[i])
    ensures n < |s| ==> !IsSpace(s[|s| - n - 1])
  {
    if |s| == 0 || !IsSpace(s[|s| - 1]) then 0 else 1 + TrailingSpaces(s[..|s| - 1])
  }

  /** Go's `strings.TrimSpace`: the part of `s` between its leading and its
      trailing white space. As in Go, the trailing run is only looked for
      when something is left after the leading one. */
  function TrimSpace(s: string): (r: string)
    ensures |r| <= |s|
    ensures r == [] <==> AllSpace(s)
    ensures r == [] || (!IsSpace(r[0]) && !IsSpace(r[|r| - 1]))
    ensures LeadingSpaces(s) + |r| <= |s|
    ensures r == s[LeadingSpaces(s)..LeadingSpaces(s) + |r|]
    ensures forall i :: 0 <= i < |s| && (i < LeadingSpaces(s) || LeadingSpaces(s) + |r| <= i) ==> IsSpace(s[i])
  {
    var a := LeadingSpaces(s);
    if a == |s| then []
    else
      var b := TrailingSpaces(s);
      assert a < |s| - b by {
        assert !IsSpace(s[a]);
      }
      s[a..|s| - b]
  }

  /** The trimming of `u` is the word `t` that sits at offset `k` of `u`
      when `t` has no white space at its ends and `u` has only white
      space around it. */
  lemma TrimSpaceOfSpaced(u: string, k: nat, t: string)
    requires |t| > 0 && !IsSpace(t[0]) && !IsSpace(t[|t| - 1])
    requires k + |t| <= |u| && u[k..k + |t|] == t
    requires forall i :: 0 <= i < |u| && (i < k || k + |t| <= i) ==> IsSpace(u[i])
    ensures TrimSpace(u) == t
  {
    var r := TrimSpace(u);
    var n := LeadingSpaces(u);
    assert u[k] == t[0] && u[k + |t| - 1] == t[|t| - 1];
    assert n == k;
    assert |r| == |t| by {
      assert r == [] || r[|r| - 1] == u[n + |r| - 1];
    }
  }

  /** Trimming a word that has no white space at its ends, framed by
      white space only, gives back the word. */
  lemma TrimSpaceOfFramed(pre: string, s: string, post: string)
    requires |s| > 0 && !IsSpace(s[0]) && !IsSpace(s[|s| - 1])
    requires AllSpace(pre) && AllSpace(post)
    ensures TrimSpace(pre + s + post) == s
  {
    var u := pre + s + post;
    forall i | 0 <= i < |u| && (i < |pre| || |pre| + |s| <= i)
      ensures IsSpace(u[i])
    {
      if i < |pre| {
        assert u[i] == pre[i];
      } else {
        assert u[i] == post[i - |pre| - |s|];
      }
    }
    assert u[|pre|..|pre| + |s|] == s;
    TrimSpaceOfSpaced(u, |pre|, s);
  }

  /** White space around text makes no difference to its trimming. */
  lemma TrimSpaceIgnoresFrame(pre: string, s: string, post: string)
    requires AllSpace(pre) && AllSpace(post)
    ensures TrimSpace(pre + s + post) == TrimSpace(s)
  {
    var t := TrimSpace(s);
    if t == [] {
      AllSpaceAppend(pre, s);
      AllSpaceAppend(pre + s, post);
    } else {
      var u := pre + s + post;
      var n := LeadingSpaces(s);
      var k := |pre| + n;
      forall i | 0 <= i < |u| && (i < k || k + |t| <= i)
        ensures IsSpace(u[i])
      {
        if i < |pre| {
          assert u[i] == pre[i];
        } else if i < |pre| + |s| {
          assert u[i] == s[i - |pre|];
        } else {
          assert u[i] == post[i - |pre| - |s|];
        }
      }
      assert u[k..k + |t|] == t by {
        forall j | 0 <= j < |t|
          ensures u[k + j] == t[j]
        {
          assert u[k + j] == s[n + j];
        }
      }
      TrimSpaceOfSpaced(u, k, t);
    }
  }

  /** Go's `strings.TrimPrefix`. */
  function TrimPrefix(s: string, prefix: string): (r: string)
    ensures prefix <= s ==> prefix + r == s
    ensures !(prefix <= s) ==> r == s
  {
    if prefix <= s then s[|prefix|..] else s
  }
}

=== FILE: wrappers.dfy ===
/** Option and Result, the two failure-carrying values the rest of the model
    uses in place of Go's nil pointers and (value, error) pairs. */
module Wrappers {

  datatype Option<+T> = None | Some(value: T) {
    function GetOr(default: T): T {
      match this
      case Some(v) => v
      case None => default
    }
  }

  /** A Go `(value, error)` pair in which exactly one side is meaningful. */
  datatype Result<+T, +E> = Ok(value: T) | Err(error: E) {
    function GetOr(default: T): T {
      match this
      case Ok(v) => v
      case Err(_) => default
    }
  }
}
